=== FILE: README.md ===
# A Dafny model of the promise.js Promise polyfill

`promise.js` installs an ECMAScript 2015 `Promise` (ECMA-262 6th edition,
section 25.4) for browsers that lack one. Its core is a sequential state
machine: a table of promises, each pending with two reaction lists or
settled with a result; one-shot resolve/reject pairs that share an
`alreadyResolved` cell; reaction and thenable jobs; and a job handler that
buffers jobs and drains them in one batch when a backend callback fires.

This project models that core as pure functions over an immutable heap:

- `common.dfy` (`Common`): `Option` and `Result`.
- `js_values.dfy` (`Js`): the JavaScript values the library distinguishes.
  It covers `typeof`, callability, truthiness, `then` lookup, `length` and
  indexing. The library's closures are values (`ResolveFn`, `RejectFn`,
  `AllResolveElement`, `Identity`, `Thrower`). User code is `User(id)`, and
  an `Oracle` parameter decides what it does. A user reaction handler only
  returns or throws. A user executor and a foreign `then` may also call the
  resolving pair they were handed, synchronously, before they end.
- `promise_core.dfy` (`Promises`): the heap holds promise records, the
  `{ _value }` cells, the `Promise.all` counts and the `values` arrays. Ids
  are indices into these tables. Every operation returns the next heap, the
  jobs it enqueued (in order) and its completion (a return or a throw). The
  module covers settlement, the resolving functions, the constructor,
  capabilities, `then`/`catch` and the two jobs.
- `combinators.dfy` (`Combinators`): the `Iterator` over anything with a
  `length` (strings, arrays, array-like objects, functions),
  `Promise.resolve`, `Promise.reject`, `Promise.all` and `Promise.race`.
- `job_queue.dfy` (`JobQueue`): the job handler's buffer, `enqueue`,
  `_process` and `_remove`, generic in the job type. `_process` is proved to
  agree with a FIFO reference drain. It also has the ranked choice of a
  backend.
- `scheduler.dfy` (`Scheduler`): the promise jobs put on that queue and
  drained with `RunJob`.
- `promise_lemmas.dfy` and `combinator_lemmas.dfy`: properties that relate
  several operations.
- `combinator_wiring.dfy` (`CombinatorWiring`): which reactions the
  `Promise.all` and `Promise.race` loops attach to the promise of each
  element, and the `Promise.all` bookkeeping invariant as it stands when
  `performPromiseAll` returns.

The model follows the code as written, including where it departs from the
standard:

- a resolution whose `typeof` is not "object" is fulfilled directly;
- `null` and a throwing `then` getter reject with `undefined`;
- a throwing executor or thenable call rejects with `undefined`;
- the thenable job passes one array argument;
- `isPromise` holds for every non-null object;
- `Promise.reject` throws a ReferenceError;
- `Promise.all`/`race` on an invalid iterable answer `undefined`.

## Model

| member | source | states |
|---|---|---|
| Js.IsCallable | promise.js:522-524 | exactly function values are callable; `null` is not |
| Js.IsPromise | promise.js:534-536 | holds exactly for the values whose `typeof` is "object" other than `null`, promises or not: the test compares `_promiseState` with the string "undefined", which never fails |
| Promises.NewPromise | promise.js:724-727 | the new promise is appended as pending with empty reaction lists and an undefined result; nothing else changes |
| Promises.NewFlag | promise.js:447-448 | a fresh cell is appended, initially false; nothing else changes |
| Promises.GetThen | promise.js:424-432 | reading `then` throws exactly for `null` and for an object whose getter throws. It is callable exactly for the library's promises, whose `then` is the built-in one, and for foreign thenables, whose own method is used |
| Promises.RunExecutor | promise.js:729-734 | the executor runs with the pair; no table changes size and no cell is cleared. An executor that returns without calling the pair leaves everything as it was. One that throws without calling it has the pair's reject called with `undefined`: the pending promise is rejected with `undefined`, its reject reactions are queued and the constructor goes on normally |
| Combinators.GetCurrent | promise.js:130-132 | before the first `next` the current element is `undefined`. For an array or an object with a `length` it is the item at the index, or `undefined` past the end; for a string, the one-character string at the index. A value with no elements yields `undefined` |
| Promises.CreateResolvingFunctions | promise.js:447-452 | the resolve and reject functions of `p` share the one fresh cell, which starts unset |
| Promises.TriggerPromiseReactions | promise.js:706-711 | one reaction job per reaction, in list order, each carrying the argument |
| Promises.FulfillPromise | promise.js:461-468 | stores the value and the fulfilled state and touches no other promise. It returns normally iff the promise was pending, and then enqueues exactly the fulfil reactions. On a settled promise it enqueues nothing and throws |
| Promises.RejectPromise | promise.js:690-697 | the same for rejection and the reject reactions |
| Promises.ResolveFunction | promise.js:411-439 | a set cell makes the call a no-op returning undefined. The first call sets the cell, touches no other promise and no count or array, and returns undefined on a pending promise |
| Promises.RejectFunction | promise.js:389-401 | a set cell makes the call a no-op. The first call sets the cell and touches no other promise. On a pending promise it stores the rejection with the reason, returns undefined and enqueues exactly its reject reactions |
| Promises.Call | promise.js:357-439 | calling any function of the library or of the user keeps the table sizes and never clears a cell |
| Promises.ResolveElement | promise.js:357-379 | a set cell makes the call a no-op; any call keeps the table sizes and never clears a cell |
| Promises.Invoke | promise.js:389-439 | a sequence of calls of a resolving pair keeps the table sizes and never clears a cell |
| Promises.RunBehaviour | promise.js:729-734 | running user code handed a resolving pair keeps the table sizes and never clears a cell |
| Promises.Construct | promise.js:721-735 | a non-callable executor throws TypeError "Promise resolver must be function" and changes nothing (iff). Otherwise one promise and one cell are allocated and the call answers the new promise: whatever the executor does, its exception never escapes |
| Promises.CallThrowLeavesPending | promise.js:357-439 | a call that throws leaves a pending promise's record as it was |
| Promises.OwnPairNeverThrows | promise.js:389-439 | calls of a promise's own resolving pair never throw while the promise is pending or the pair's cell is set, and after them one of the two still holds |
| Promises.ExecutorNeverThrows | promise.js:729-734 | running any executor with the new promise's own fresh pair completes normally, because the catch calls a reject that cannot throw |
| Promises.CapabilitiesExecutor | promise.js:477-492 | fills both slots iff both were empty, otherwise throws a TypeError |
| Promises.NewPromiseCapability | promise.js:545-555 | succeeds iff the constructor is the library's `Promise` (otherwise TypeError). The capability is a fresh pending promise with its resolving functions on a fresh unset cell |
| Promises.PerformPromiseThen | promise.js:616-638 | returns the capability's promise. On a pending promise it appends one reaction to each list, with `identity`/`thrower` for non-callables, and enqueues nothing. On a settled promise it leaves the heap alone and enqueues one job with the stored result |
| Promises.PromiseThen | promise.js:752-759 | a receiver that is `null` or not an object throws "Invalid operation on a promise function". A non-promise object throws TypeError. A promise yields a fresh pending derived promise |
| Promises.PromiseCatch | promise.js:742-744 | `catch(f)` is `then(undefined, f)` |
| Promises.PromiseReactionJob | promise.js:647-664 | a reaction job keeps the table sizes and never clears a cell. With a library capability it always sets that capability's cell: the handler's result or exception always reaches the derived promise's resolving pair |
| Promises.PromiseResolveThenableJob | promise.js:674-681 | the thenable job allocates the cell of a fresh resolving pair, never clears a cell and drops no promise |
| Promises.RunJob | promise.js:167-169 | running either kind of job never clears a cell and drops no promise |
| Combinators.MakeIterator | promise.js:109-114 | fails with TypeError "Invalid iterable" iff the argument is falsy or has no `length`; otherwise starts before index 0 |
| Combinators.Next | promise.js:121-124 | steps the index (0 first) and answers whether it is below `length` |
| Combinators.FreshCapability | promise.js:545-555 | a capability of the library's `Promise` always exists: a fresh pending promise and its resolving pair |
| Combinators.PromiseResolve | promise.js:841-851 | a library promise is returned as it is, with nothing enqueued. Anything else yields a fresh promise, the next id, whose heap and jobs are exactly those of its resolve function called with the argument. The call never throws, clears no cell and touches no count or array |
| Combinators.PromiseReject | promise.js:826-831 | throws ReferenceError for the undeclared `r` after allocating a pending promise, and enqueues nothing |
| Combinators.IfAbruptRejectPromise | promise.js:502-513 | never throws and keeps the table sizes. A normal completion answers undefined and changes nothing. On an exception, a library capability whose promise is pending and whose cell is unset ends rejected with the exception, its reject reactions are enqueued and the call answers undefined; a reject that throws makes the call answer the capability's promise |
| Combinators.AllElement | promise.js:570-578 | one loop pass never throws. It pushes one hole onto `values` and adds one to the count |
| Combinators.AllLoop | promise.js:570-578 | the `all` loop never throws and allocates no count or array |
| Combinators.PerformPromiseAll | promise.js:566-585 | allocates exactly one count and one `values` array, and when it returns it answers the capability's promise |
| Combinators.RaceLoop | promise.js:596-600 | the `race` loop never throws |
| Combinators.PerformPromiseRace | promise.js:595-603 | always answers the capability's promise |
| Combinators.PromiseAll | promise.js:767-786 | `Promise.all` never throws: every exception is turned into a rejection |
| Combinators.PromiseRace | promise.js:797-816 | `Promise.race` never throws: every exception is turned into a rejection |
| PromiseLemmas.InvokeAfterResolved | promise.js:411-417 | once the shared cell is set, any calls of the pair change nothing and return undefined |
| PromiseLemmas.OnlyFirstSettlementCounts | promise.js:389-401 | any sequence of calls of a resolve/reject pair has exactly the outcome of its first call |
| PromiseLemmas.ResolvingFunctionsShareOneCell | promise.js:447-452 | after either function of a fresh pair has been called, a second call of either changes nothing |
| PromiseLemmas.ResolveBranches | promise.js:418-434 | the first resolve branches: self-resolution rejects with TypeError; a non-object fulfils; `null` or a throwing getter rejects with undefined; a non-callable `then` fulfils with the object; a callable `then` leaves the promise pending and enqueues one thenable job |
| PromiseLemmas.TriggerAppend | promise.js:706-711 | triggering concatenated reaction lists triggers each part in turn |
| PromiseLemmas.ThenCommutesWithFulfil | promise.js:625-631 | `then` then fulfil, or fulfil then `then`, give the same heap and the same job sequence |
| PromiseLemmas.ThenCommutesWithReject | promise.js:633-635 | the same for reject |
| PromiseLemmas.SecondSettlementOverwritesAndThrows | promise.js:461-468 | settling a settled promise again overwrites its record with the new state and value, then throws and enqueues nothing, because the reaction lists were already cleared |
| PromiseLemmas.IdentityReactionPassesThrough | promise.js:654-659 | an `identity` reaction resolves the derived capability with the argument itself |
| PromiseLemmas.ThrowerReactionRejects | promise.js:647-664 | a `thrower` reaction rejects the derived capability with the argument |
| PromiseLemmas.UserReactionSettlesDerived | promise.js:653-662 | a user handler's return value resolves the derived capability, and its exception rejects it |
| PromiseLemmas.ThrowerRejectsDerived | promise.js:77-79 | a `thrower` reaction leaves the derived promise rejected with the reason, and its reject reactions are queued |
| PromiseLemmas.LaterRaceReactionIsIgnored | promise.js:595-603 | once a race capability's cell is set, a later reaction settling it leaves the race promise as it is |
| PromiseLemmas.FirstRaceResolveSettles | promise.js:647-664 | a reaction job that calls the race capability's resolve while the race promise is pending and its cell unset sets the cell and fulfils the race promise with a non-object argument |
| PromiseLemmas.FirstRaceRejectSettles | promise.js:647-664 | a reaction job that calls the race capability's reject while the race promise is pending and its cell unset sets the cell and rejects the race promise with the argument |
| PromiseLemmas.ExecutorResolutionIsFinal | promise.js:729-734 | an executor that first resolves with a non-object fulfils the new promise with it, whatever it does next |
| PromiseLemmas.ThrowingExecutorRejectsWithUndefined | promise.js:730-733 | an executor that only throws leaves the new promise rejected with undefined |
| PromiseLemmas.AdoptingLibraryPromiseNeverSettles | promise.js:674-681 | the thenable job for a library promise leaves the adopting promise as it is: `then` gets one non-callable array |
| PromiseLemmas.ForeignThenResolutionIsFinal | promise.js:674-681 | a foreign `then` that first resolves with a non-object fulfils the adopting promise with it, whatever it does next, and the job enqueues exactly its fulfil reactions |
| PromiseLemmas.ThrowingForeignThenRejectsWithUndefined | promise.js:677-680 | a foreign `then` that only throws leaves the adopting promise rejected with undefined, not with the exception, and the job enqueues its reject reactions |
| CombinatorLemmas.VisitFrom | promise.js:121-132 | from before index i, the loop visits elements i .. length-1 in order |
| CombinatorLemmas.IteratorVisitsInOrder | promise.js:109-132 | a fresh iterator visits indices 0 .. length-1, in order |
| CombinatorLemmas.ExhaustedIteratorStaysExhausted | promise.js:121-124 | once `next` answers false it keeps answering false |
| CombinatorLemmas.ArrayIteratorVisitsItems | promise.js:109-132 | an array's iterator visits exactly its items |
| CombinatorLemmas.ResolveOfPrimitiveIsFulfilled | promise.js:848-850 | `Promise.resolve` of a non-object yields a fresh promise already fulfilled with it |
| CombinatorLemmas.AllLoopCounts | promise.js:570-578 | the `all` loop adds 1 to the count per element visited |
| CombinatorLemmas.AllLoopHoles | promise.js:570-578 | the `all` loop appends one hole to `values` per element visited |
| CombinatorLemmas.PerformPromiseAllCounts | promise.js:566-585 | after `performPromiseAll` the count equals the number of elements and `values` has one hole each. With no elements the promise is already fulfilled with `[]` |
| CombinatorLemmas.ElementCall | promise.js:357-379 | the first call of element k stores x at slot k, sets its cell, lowers the count by one and keeps the bookkeeping invariant. It does nothing else while elements remain, and on the call that reaches 0 it fulfils the result promise with `values` |
| CombinatorLemmas.ElementCalledTwice | promise.js:358-362 | a second call of an element function changes nothing |
| CombinatorLemmas.CombinatorAnswersItsPromise | promise.js:767-816 | on a valid iterable, `all` and `race` answer their fresh promise |
| CombinatorLemmas.AllOfEmptyArrayResolvesAtOnce | promise.js:767-786 | `Promise.all([])` answers a promise already fulfilled with `[]` |
| CombinatorLemmas.CombinatorOfInvalidIterable | promise.js:774-785 | on an invalid iterable the fresh promise is rejected with TypeError "Invalid iterable", but the call answers undefined |
| CombinatorWiring.ThenAttaches | promise.js:625-635 | `then` on a promise attaches both handlers to it, on behalf of the derived capability it builds: a library capability whose promise is newer than every existing one. They are reactions while the promise is pending, and a queued job once it is settled. No promise settles or loses a reaction |
| CombinatorWiring.AttachedPersists | promise.js:625-635 | an attached handler pair stays attached, through the same derived capability, across steps that only append reactions and jobs |
| CombinatorWiring.TargetsAppend | promise.js:573 | what `Promise.resolve` made of each element stays true across later passes: the element itself for a library promise, otherwise a promise allocated by its own pass, which for a primitive stays fulfilled with it |
| CombinatorWiring.AllElementWiring | promise.js:570-578 | one pass attaches the element function with the pass's index and a fresh unset cell, with the capability's reject, to the element's promise, through a library capability allocated by the pass. That promise is the element itself when it is a library promise; otherwise it is allocated by the pass, and fulfilled with the element when that is a primitive. Older cells are kept |
| CombinatorWiring.AllLoopWiring | promise.js:570-578 | the loop attaches, for the k-th element visited, the element function with index k and its own cell to that element's promise, which is as in `AllElementWiring`, through a library capability allocated by the loop. The cells are fresh, strictly increasing and still unset when the loop ends |
| CombinatorWiring.PerformPromiseAllWiring | promise.js:566-585 | after `performPromiseAll` the bookkeeping invariant holds for exactly the element functions the loop created: the count is the number of unset cells and `values` has one slot each. Element k's promise, as in `AllElementWiring`, has element function k and the capability's reject attached, and while an element is outstanding the result promise is pending with its cell unset. From there `CombinatorLemmas.ElementCall` applies to each element call |
| CombinatorWiring.PrimitiveElementQueued | promise.js:570-578 | after `performPromiseAll` a primitive element's promise is already fulfilled, so the job that calls element function k with the element itself is queued, for a library capability allocated during the call |
| CombinatorWiring.RaceLoopWiring | promise.js:596-600 | the `race` loop attaches the capability's own resolve and reject to the promise of every element it visits, through a library capability allocated by the loop. That promise is the element itself, or a promise the loop allocated, fulfilled with the element when that is a primitive |
| CombinatorWiring.PerformPromiseRaceWiring | promise.js:595-603 | after `performPromiseRace` every element's promise is as in `RaceLoopWiring` and has the race capability's resolve and reject attached, through a library capability allocated during the call |
| CombinatorWiring.RaceReactionsAfterSettling | promise.js:595-603 | the reactions on element k's promise run for a library capability other than the race capability, so once the race capability's cell is set neither of them changes the race promise, whatever argument they get |
| JobQueue.FirstSupported | promise.js:323-341 | the chosen backend is supported, and none is chosen iff no backend is supported |
| JobQueue.FirstSupportedIsEarliest | promise.js:331-341 | the backend at position k is chosen exactly when it is supported and none ranked before it is |
| JobQueue.NewJobHandler | promise.js:175-189 | a new handler has an empty, consistent buffer and holds no token. Its `isSupported` (`JobHandler.IsSupported`) holds exactly when the host has both primitives its backend needs: the message-passing backend needs `postMessage` and no `importScripts` |
| JobQueue.CreateJobHandler | promise.js:331-341 | answers the first supported backend in the order Immediate, MsImmediate, CustomImmediate, Timeout, with an empty valid buffer. It fails with "No job handler supported." iff there is none |
| JobQueue.Push | promise.js:201-202 | the fill count and the next token each grow by one, and the new token is scheduled |
| JobQueue.PushKeepsWindow | promise.js:201-202 | pushing keeps the buffer consistent and appends the job to the pending order. The new token was not already held |
| JobQueue.Remove | promise.js:217-221 | clears the slot and cancels exactly its token |
| JobQueue.RemoveAdvancesWindow | promise.js:217-221 | removing the head of the window advances it and drops exactly the first pending job |
| JobQueue.Enqueue | promise.js:191-203 | an unsupported handler throws TypeError (iff); otherwise the job is pushed |
| JobQueue.PushAllKeepsWindow | promise.js:191-203 | pushing jobs in turn appends them, in order, and keeps the buffer consistent |
| JobQueue.DrainIsFifo | promise.js:205-211 | the reference drain runs the queued jobs first, in queue order, and stops only when the queue is empty or the fuel is spent |
| JobQueue.DrainRespects | promise.js:205-211 | a relation between states that every job respects and that composes holds between the states before and after a whole drain |
| JobQueue.Process | promise.js:205-211 | `_process` runs the same jobs and reaches the same state as the FIFO reference drain, including jobs enqueued while it runs. When nothing is left, the buffer is empty, `_length` is 0 and no token is held |
| JobQueue.RunSlot | promise.js:206-209 | executing and removing the head job keeps the buffer consistent and extends the drained prefix by that job |
| JobQueue.Finish | promise.js:210 | after the loop, the drain so far is the whole reference drain |
| JobQueue.ProcessStep | promise.js:206-209 | executing the head and removing it is one step of the reference drain |
| Scheduler.Schedule | promise.js:191-193 | handing jobs to `enqueue` fails iff there is a job and the handler is unsupported |
| Scheduler.ScheduleAppends | promise.js:191-203 | on a supported handler the jobs are appended to the pending order, in order |
| Scheduler.Commit | promise.js:706-711 | an operation's outcome is applied iff its jobs could be enqueued, and the heap becomes its heap |
| Scheduler.RunJobs | promise.js:205-221 | a drain of the promise jobs equals the FIFO reference drain over `RunJob` |
| Scheduler.DrainKeepsCells | promise.js:205-211 | a drain of promise jobs never clears a cell and drops no promise, however many jobs run |
| Scheduler.ResolvedPairStaysInert | promise.js:411-417 | a resolving pair whose cell was set before a drain is still a no-op returning undefined after it: a promise is resolved at most once through one pair, even across jobs |
| Scheduler.RaceStaysSettled | promise.js:595-603 | once the race capability's cell is set, a reaction job for another element run after any drain leaves the race promise as it is |
| Scheduler.RaceLoserStaysIgnored | promise.js:595-603 | for every element `performPromiseRace` wired, once the race capability's cell is set, the element's reactions run after any drain leave the race promise as it is: only the first call of the race capability's pair can settle the race. That this first call does settle it is `PromiseLemmas.FirstRaceResolveSettles` |
| Scheduler.ThenHandlerRunsOnDrain | promise.js:629-664 | `then` on a fulfilled promise leaves the derived promise pending and queues one job. The next drain runs the handler and fulfils the derived promise with its non-object result |

## Left out

- The `Object.create` and `Function.prototype.bind` shims (promise.js:4-54) are host emulation, not promise logic.
- The backends' scheduling primitives (promise.js:231-318) are browser I/O. Each is modelled as available or not, with an opaque token per scheduled callback. When the callback fires is left to the caller of `Scheduler.RunJobs`.
- Global installation and the check for a native `Promise` (promise.js:56-58, 856-860) are environment probing.
- The default-buffer test (promise.js:176) never fires, and the `args` test in `enqueue` (promise.js:198) always passes for the library's jobs. The buffer is an unbounded sequence.
- The job's name and the `action`/`args` representation are left out. A job is `ReactionJob` or `ResolveThenableJob`, and `Job.execute` is `RunJob`.
- `Iterator.prototype.reset` is never called. `IteratorRecord._done` is written but never read.
- The static methods are modelled with `this` bound to the library's `Promise`. A user-defined constructor that calls the capabilities executor itself is not modelled: any other constructor fails the callable check.
- The bodies of user handlers, executors and foreign `then` methods are unknown code, and they have no effect on the library's state other than the calls below. A handler only returns or throws. An executor or a foreign `then` may call the pair it was handed, synchronously, and then returns or throws; all of this comes from the `Oracle`. A call of a resolving function made later, from a timer or another job, is made by the model's caller through `Promises.Call` and `Scheduler.Commit`.
- Numbers are integers. NaN, fractional lengths and objects whose `length` is not a non-negative integer are not modelled. Only `ArrayLike` objects have a `length`; other plain objects, thenables and objects with a throwing `then` getter are treated as having none.
- String `length` and indexing count Unicode code points, where JavaScript counts UTF-16 code units. A string outside the Basic Multilingual Plane is shorter in the model.
- A job's completion is dropped. The library's jobs catch everything their handlers throw, but the reject call inside each catch (promise.js:661, 679) is not guarded, and it throws when its promise is settled while its cell is unset. Ruling that out needs the settle-once invariant that is not proved (see below). If it did throw, `_process` (promise.js:205-211) would stop mid-batch with `_length` unchanged and the drained slots already `undefined`, so every later `_process` would throw at `this._queue[0].execute()` (promise.js:214) and the queue would never drain again. The model does not represent that stuck state.
- JobQueue.Process: drains at most `fuel` jobs. A chain of jobs that keeps enqueueing forever is cut off there, and the rest stays buffered.
- Promises.Call: states only that the tables keep their sizes and no cell is cleared. What each kind of function does is stated by the members for that function and by the lemmas about reaction jobs.
- Promises.ResolveElement: its own contract states the no-op on a set cell, the table sizes and the kept cells. The effect of a first call is stated by `CombinatorLemmas.ElementCall`.
- Promises.Invoke: states only the table sizes and the kept cells. The one-shot behaviour is stated by `PromiseLemmas.OnlyFirstSettlementCounts`.
- Promises.RunBehaviour: states only the table sizes and the kept cells.
- Promises.PromiseResolveThenableJob: its own contract states only the fresh cell and the kept cells and promises. Its outcomes are stated by `PromiseLemmas.AdoptingLibraryPromiseNeverSettles`, `PromiseLemmas.ForeignThenResolutionIsFinal` and `PromiseLemmas.ThrowingForeignThenRejectsWithUndefined`.
- Combinators.PromiseAll: does not state that the call answers a fresh promise; `CombinatorLemmas.CombinatorAnswersItsPromise` does, for valid iterables.
- Combinators.PromiseRace: likewise.
- Promises.RunExecutor: states the executors that make no call on the pair. Executors that do call it are covered by `PromiseLemmas.ExecutorResolutionIsFinal` and by `Promises.ExecutorNeverThrows`.
- CombinatorLemmas.ElementCall: the count invariant `Tracks` is established by `CombinatorWiring.PerformPromiseAllWiring` and proved preserved by element calls. That every other job or operation run in between also preserves it is not proved.
- A promise settled once is not proved to stay settled across all operations. `FulfillPromise` and `RejectPromise` overwrite a settled record, so that would need the invariant "every resolving cell of a settled promise is set" over every reachable heap. What is proved is that a set cell stays set (`Scheduler.DrainKeepsCells`), so the pair that settled a promise stays inert (`Scheduler.ResolvedPairStaysInert`).
- PromiseLemmas.AdoptingLibraryPromiseNeverSettles: covers the thenable job itself. That the dropped pair is never called later follows from nothing else holding it, which the model does not state.

=== FILE: combinator_lemmas.dfy ===
/**
 * Properties of the static methods: the iterator's enumeration order, the
 * bookkeeping of `Promise.all` (the shared count and the `values` array),
 * and the outcomes of `Promise.resolve`, `Promise.all` and `Promise.race` on
 * simple inputs.
 */
module CombinatorLemmas {
  import opened Common
  import opened Js
  import opened Promises
  import opened Combinators

  // ---------------------------------------------------------------------------
  // Iterator
  // ---------------------------------------------------------------------------

  /**
   * From the state before position `i`, the loop visits the elements at
   * `i`, `i + 1`, ..., `length - 1` in that order.
   */
  lemma {:induction false} VisitFrom(it: Iterator, i: nat)
    requires i <= it.length
    requires it.index == (if i == 0 then None else Some(i - 1))
    ensures Visit(it) == seq(it.length - i, k requires 0 <= k => ElementAt(it.iterable, i + k))
    decreases it.length - i
  {
    var (it', more) := Next(it);
    if i < it.length {
      VisitFrom(it', i + 1);
      var rest := seq(it.length - (i + 1), k requires 0 <= k => ElementAt(it.iterable, i + 1 + k));
      var all := seq(it.length - i, k requires 0 <= k => ElementAt(it.iterable, i + k));
      assert all == [ElementAt(it.iterable, i)] + rest;
    }
  }

  /**
   * A fresh iterator over an array-like of length n visits its elements at
   * indices 0 .. n-1, in order; then `next` answers false from then on.
   */
  lemma IteratorVisitsInOrder(v: Value, o: Oracle)
    requires MakeIterator(v, o).Ok?
    ensures var it := MakeIterator(v, o).value;
            Visit(it) == seq(it.length, k requires 0 <= k => ElementAt(v, k))
  {
    VisitFrom(MakeIterator(v, o).value, 0);
  }

  /** Once `next` has answered false, it keeps answering false. */
  lemma ExhaustedIteratorStaysExhausted(it: Iterator)
    requires !Next(it).1
    ensures !Next(Next(it).0).1
  {
  }

  /** An array's iterator visits exactly the array's items. */
  lemma ArrayIteratorVisitsItems(items: seq<Value>, o: Oracle)
    ensures MakeIterator(ArrayValue(items), o).Ok?
    ensures Visit(MakeIterator(ArrayValue(items), o).value) == items
  {
    IteratorVisitsInOrder(ArrayValue(items), o);
  }

  // ---------------------------------------------------------------------------
  // Promise.resolve
  // ---------------------------------------------------------------------------

  /** `Promise.resolve` of a non-object answers a fresh promise already fulfilled with it. */
  lemma ResolveOfPrimitiveIsFulfilled(h: Heap, x: Value, o: Oracle)
    requires TypeOf(x) != "object"
    ensures var r := PromiseResolve(h, x, o);
            && r.completion == Normal(PromiseRef(|h.promises|))
            && r.heap.promises[|h.promises|] == PromiseRecord(Fulfilled, x)
            && r.jobs == []
  {
  }

  // ---------------------------------------------------------------------------
  // Promise.all bookkeeping
  // ---------------------------------------------------------------------------

  /** The loop of `performPromiseAll` adds 1 to the count per element it visits. */
  lemma {:induction false} AllLoopCounts(h: Heap, it: Iterator, index: nat, values: ArrayId, remaining: CounterId,
                                         cap: Capability, o: Oracle)
    requires remaining < |h.counters|
    ensures var r := AllLoop(h, it, index, values, remaining, cap, o);
            remaining < |r.heap.counters| && r.heap.counters[remaining] == h.counters[remaining] + |Visit(it)|
    decreases Remaining(it)
  {
    var (it', more) := Next(it);
    if more {
      var body := AllElement(h, GetCurrent(it'), index, values, remaining, cap, o);
      AllLoopCounts(body.heap, it', index + 1, values, remaining, cap, o);
      var rest := AllLoop(body.heap, it', index + 1, values, remaining, cap, o);
      assert AllLoop(h, it, index, values, remaining, cap, o).heap == rest.heap;
    }
  }

  /** One turn of the `performPromiseAll` loop over a non-exhausted iterator. */
  lemma AllLoopStep(h: Heap, it: Iterator, index: nat, values: ArrayId, remaining: CounterId,
                    cap: Capability, o: Oracle)
    requires Next(it).1
    ensures var it' := Next(it).0;
            var body := AllElement(h, GetCurrent(it'), index, values, remaining, cap, o);
            && Visit(it) == [GetCurrent(it')] + Visit(it')
            && AllLoop(h, it, index, values, remaining, cap, o)
               == Chain(body, AllLoop(body.heap, it', index + 1, values, remaining, cap, o))
  {
  }

  /** With an element outstanding, `performPromiseAll` ends after the loop and the final decrement. */
  lemma PerformPromiseAllOutstanding(h: Heap, it: Iterator, cap: Capability, o: Oracle)
    requires |Visit(it)| > 0
    ensures var h1 := h.(arrays := h.arrays + [[]], counters := h.counters + [1]);
            var looped := AllLoop(h1, it, 0, |h.arrays|, |h.counters|, cap, o);
            PerformPromiseAll(h, it, cap, o)
              == Step(looped.heap.AddToCounter(|h.counters|, -1), looped.jobs, Normal(PromiseRef(cap.promise)))
  {
    var h1 := h.(arrays := h.arrays + [[]], counters := h.counters + [1]);
    AllLoopCounts(h1, it, 0, |h.arrays|, |h.counters|, cap, o);
  }

  /** The loop of `performPromiseAll` pushes one hole onto `values` per element it visits. */
  lemma {:induction false} AllLoopHoles(h: Heap, it: Iterator, index: nat, values: ArrayId, remaining: CounterId,
                                        cap: Capability, o: Oracle)
    requires values < |h.arrays|
    ensures var r := AllLoop(h, it, index, values, remaining, cap, o);
            values < |r.heap.arrays| && Padded(h.arrays[values], r.heap.arrays[values], |Visit(it)|)
    decreases Remaining(it)
  {
    var (it', more) := Next(it);
    if more {
      var body := AllElement(h, GetCurrent(it'), index, values, remaining, cap, o);
      AllLoopHoles(body.heap, it', index + 1, values, remaining, cap, o);
      var rest := AllLoop(body.heap, it', index + 1, values, remaining, cap, o);
      AllLoopStep(h, it, index, values, remaining, cap, o);
      PaddedStep(h.arrays[values], rest.heap.arrays[values], |Visit(it')|);
    }
  }

  lemma PaddedStep(a: seq<Value>, b: seq<Value>, n: nat)
    requires Padded(a + [Undefined], b, n)
    ensures Padded(a, b, n + 1)
  {
  }

  /** `b` is `a` followed by `n` holes. */
  predicate Padded(a: seq<Value>, b: seq<Value>, n: nat) {
    && |b| == |a| + n
    && b[..|a|] == a
    && forall k :: |a| <= k < |b| ==> b[k] == Undefined
  }

  /**
   * After `performPromiseAll` the count equals the number of elements and
   * `values` holds one hole per element; with no elements, the count is
   * already 0 and the capability is resolved with the empty array.
   */
  lemma PerformPromiseAllCounts(h: Heap, it: Iterator, cap: Capability, g: FlagId, o: Oracle)
    requires BuiltinCapability(cap, g) && h.IsPending(cap.promise) && !h.Flag(g) && g < |h.flags|
    ensures var r := PerformPromiseAll(h, it, cap, o);
            var n := |Visit(it)|;
            && r.completion == Normal(PromiseRef(cap.promise))
            && |r.heap.counters| == |h.counters| + 1 && |r.heap.arrays| == |h.arrays| + 1
            && r.heap.counters[|h.counters|] == n
            && |r.heap.arrays[|h.arrays|]| == n
            && (forall k :: 0 <= k < n ==> r.heap.arrays[|h.arrays|][k] == Undefined)
            && (n == 0 ==> r.heap.promises[cap.promise] == PromiseRecord(Fulfilled, ArrayValue([])))
  {
    var values := |h.arrays|;
    var remaining := |h.counters|;
    var h1 := h.(arrays := h.arrays + [[]], counters := h.counters + [1]);
    AllLoopCounts(h1, it, 0, values, remaining, cap, o);
    AllLoopHoles(h1, it, 0, values, remaining, cap, o);
    var looped := AllLoop(h1, it, 0, values, remaining, cap, o);
    if |Visit(it)| == 0 {
      assert looped.heap == h1 by {
        assert !Next(it).1;
      }
    } else {
      PerformPromiseAllOutstanding(h, it, cap, o);
      var r := PerformPromiseAll(h, it, cap, o);
      assert r.heap.arrays == looped.heap.arrays && r.heap.counters[remaining] == |Visit(it)|;
    }
  }

  // ---------------------------------------------------------------------------
  // The resolve element functions of one Promise.all
  // ---------------------------------------------------------------------------

  /** One `Promise.all`: the cells of its element functions (by index), its array, count and capability. */
  datatype Group = Group(elements: seq<FlagId>, values: ArrayId, remaining: CounterId, capability: Capability)

  /** The resolve element function for index `k`. */
  function ElementFn(g: Group, k: nat): Fn
    requires k < |g.elements|
  {
    AllResolveElement(g.elements[k], k, g.values, g.capability, g.remaining)
  }

  /** How many of the cells `ids` are still unset. */
  function UnsetCount(cells: seq<bool>, ids: seq<FlagId>): nat {
    if |ids| == 0 then 0
    else (if ids[0] < |cells| && cells[ids[0]] then 0 else 1) + UnsetCount(cells, ids[1..])
  }

  predicate Distinct(ids: seq<FlagId>) {
    forall i, j :: 0 <= i < j < |ids| ==> ids[i] != ids[j]
  }

  /**
   * The bookkeeping invariant of a `Promise.all` after its loop: the count
   * equals the number of element functions not yet called, and `values` has
   * one slot per element.
   */
  predicate Tracks(h: Heap, g: Group) {
    && g.values < |h.arrays| && g.remaining < |h.counters|
    && |h.arrays[g.values]| == |g.elements|
    && Distinct(g.elements)
    && (forall i :: 0 <= i < |g.elements| ==> g.elements[i] < |h.flags|)
    && h.counters[g.remaining] == UnsetCount(h.flags, g.elements)
    && g.capability.resolve.ResolveFn?
    && g.capability.resolve.alreadyResolved !in g.elements
  }

  /** Setting cell `f` lowers the unset count by one if `f` is one of the unset `ids`, and leaves it otherwise. */
  lemma {:induction false} UnsetCountAfterSet(cells: seq<bool>, ids: seq<FlagId>, f: FlagId)
    requires f < |cells| && Distinct(ids)
    ensures f in ids && !cells[f] ==> UnsetCount(cells[f := true], ids) == UnsetCount(cells, ids) - 1
    ensures f !in ids || cells[f] ==> UnsetCount(cells[f := true], ids) == UnsetCount(cells, ids)
    decreases |ids|
  {
    if |ids| > 0 {
      assert Distinct(ids[1..]);
      UnsetCountAfterSet(cells, ids[1..], f);
      assert f in ids[1..] <==> f in ids && f != ids[0];
    }
  }

  /**
   * The first call of element function `k` stores its argument in slot `k`,
   * sets its cell, lowers the count by one and keeps the invariant. While
   * other elements are outstanding nothing else happens; the call that
   * brings the count to 0 fulfils the capability's promise with `values`.
   */
  lemma ElementCall(h: Heap, g: Group, k: nat, x: Value, o: Oracle)
    requires Tracks(h, g) && k < |g.elements| && !h.Flag(g.elements[k])
    ensures var r := ResolveElement(h, ElementFn(g, k), x, o);
            var stored := h.arrays[g.values][k := x];
            var q := g.capability.resolve.promise;
            && Tracks(r.heap, g)
            && r.heap.Flag(g.elements[k])
            && r.heap.arrays[g.values] == stored
            && r.heap.counters[g.remaining] == h.counters[g.remaining] - 1
            && (h.counters[g.remaining] > 1 ==>
                  r.completion == Normal(Undefined) && r.jobs == [] && r.heap.promises == h.promises)
            && (h.counters[g.remaining] == 1 && h.IsPending(q) && !h.Flag(g.capability.resolve.alreadyResolved) ==>
                  r.heap.promises[q] == PromiseRecord(Fulfilled, ArrayValue(stored))
                  && r.jobs == TriggerPromiseReactions(h.promises[q].state.fulfillReactions, ArrayValue(stored)))
  {
    var fk := g.elements[k];
    var rf := g.capability.resolve.alreadyResolved;
    UnsetCountAfterSet(h.flags, g.elements, fk);
    assert fk in g.elements;
    var h1 := h.SetFlag(fk).StoreElement(g.values, k, x).AddToCounter(g.remaining, -1);
    assert h1.flags == h.flags[fk := true];
    if h1.Counter(g.remaining) == 0 && rf < |h1.flags| {
      UnsetCountAfterSet(h1.flags, g.elements, rf);
    }
  }

  /** A resolve element function called a second time changes nothing. */
  lemma ElementCalledTwice(h: Heap, g: Group, k: nat, x: Value, y: Value, o: Oracle)
    requires Tracks(h, g) && k < |g.elements| && !h.Flag(g.elements[k])
    ensures var first := ResolveElement(h, ElementFn(g, k), x, o);
            ResolveElement(first.heap, ElementFn(g, k), y, o) == Step(first.heap, [], Normal(Undefined))
  {
  }

  // ---------------------------------------------------------------------------
  // Promise.all / Promise.race on simple inputs
  // ---------------------------------------------------------------------------

  /** `Promise.all([])` answers a fresh promise already fulfilled with an empty array. */
  lemma AllOfEmptyArrayResolvesAtOnce(h: Heap, o: Oracle)
    ensures var r := PromiseAll(h, ArrayValue([]), o);
            && r.completion == Normal(PromiseRef(|h.promises|))
            && r.heap.promises[|h.promises|] == PromiseRecord(Fulfilled, ArrayValue([]))
  {
    var (h1, cap) := FreshCapability(h);
    var it := MakeIterator(ArrayValue([]), o).value;
    ArrayIteratorVisitsItems([], o);
    PerformPromiseAllCounts(h1, it, cap, |h.flags|, o);
  }

  /**
   * On a valid iterable, `Promise.all` and `Promise.race` answer the fresh
   * promise of their capability, whatever the elements are.
   */
  lemma CombinatorAnswersItsPromise(h: Heap, kind: Combinator, iterable: Value, o: Oracle)
    requires MakeIterator(iterable, o).Ok?
    ensures PromiseCombinator(h, kind, iterable, o).completion == Normal(PromiseRef(|h.promises|))
  {
    var (h1, cap) := FreshCapability(h);
    var it := MakeIterator(iterable, o).value;
    if kind == All {
      PerformPromiseAllCounts(h1, it, cap, |h.flags|, o);
    }
  }

  /**
   * As written, `Promise.all` of a falsy or length-less argument rejects its
   * fresh promise with TypeError "Invalid iterable" but answers `undefined`
   * instead of that promise. The same holds for `Promise.race`.
   */
  lemma CombinatorOfInvalidIterable(h: Heap, kind: Combinator, iterable: Value, o: Oracle)
    requires MakeIterator(iterable, o).Err?
    ensures var r := PromiseCombinator(h, kind, iterable, o);
            && r.completion == Normal(Undefined)
            && r.heap.promises[|h.promises|] == PromiseRecord(Rejected, TypeErrorValue("Invalid iterable"))
  {
  }
}

=== FILE: combinator_wiring.dfy ===
/**
 * Which reactions `Promise.all` and `Promise.race` attach to the promises of
 * their elements, and the `Promise.all` bookkeeping invariant as it stands
 * when `performPromiseAll` returns.
 */
module CombinatorWiring {
  import opened Js
  import opened Promises
  import opened Combinators
  import opened CombinatorLemmas
  import PromiseLemmas

  // ---------------------------------------------------------------------------
  // Attached reactions
  // ---------------------------------------------------------------------------

  /** `b` is `a`, or both are pending with the same result and `b`'s lists extend `a`'s. */
  predicate RecordGrows(a: PromiseRecord, b: PromiseRecord) {
    || a == b
    || (&& a.state.Pending? && b.state.Pending? && a.result == b.result
        && a.state.fulfillReactions <= b.state.fulfillReactions
        && a.state.rejectReactions <= b.state.rejectReactions)
  }

  /** No promise of `h` is settled or loses a reaction on the way to `h'`. */
  predicate ReactionsGrow(h: Heap, h': Heap) {
    && |h.promises| <= |h'.promises|
    && (forall i :: 0 <= i < |h.promises| ==> RecordGrows(h.promises[i], h'.promises[i]))
  }

  /**
   * Promise `q` will run `onFulfilled` or `onRejected` on behalf of the
   * derived capability `d`: while `q` is pending both reactions are in its
   * lists; once it is settled, the job of the matching one is in `jobs`.
   */
  predicate AttachedVia(h: Heap, jobs: seq<Job>, q: PromiseId, d: Capability, onFulfilled: Fn, onRejected: Fn) {
    && q < |h.promises|
    && match h.promises[q].state
       case Pending(fulfillReactions, rejectReactions) =>
         Reaction(d, onFulfilled) in fulfillReactions && Reaction(d, onRejected) in rejectReactions
       case Fulfilled =>
         ReactionJob(Reaction(d, onFulfilled), h.promises[q].result) in jobs
       case Rejected =>
         ReactionJob(Reaction(d, onRejected), h.promises[q].result) in jobs
  }

  /**
   * `AttachedVia` for a derived capability that `then` built with the
   * library's own resolving pair, around a promise allocated at index
   * `since` or later.
   */
  ghost predicate Attached(h: Heap, jobs: seq<Job>, q: PromiseId, onFulfilled: Fn, onRejected: Fn, since: nat) {
    exists d :: IsBuiltin(d) && since <= d.promise && AttachedVia(h, jobs, q, d, onFulfilled, onRejected)
  }

  lemma ReactionsGrowTrans(a: Heap, b: Heap, c: Heap)
    requires ReactionsGrow(a, b) && ReactionsGrow(b, c)
    ensures ReactionsGrow(a, c)
  {
    forall i | 0 <= i < |a.promises|
      ensures RecordGrows(a.promises[i], c.promises[i])
    {
      assert RecordGrows(a.promises[i], b.promises[i]) && RecordGrows(b.promises[i], c.promises[i]);
    }
  }

  /** A heap that only appended promises keeps every reaction. */
  lemma AppendedGrows(h: Heap, h': Heap)
    requires |h.promises| <= |h'.promises| && h'.promises[..|h.promises|] == h.promises
    ensures ReactionsGrow(h, h')
  {
    forall i | 0 <= i < |h.promises|
      ensures RecordGrows(h.promises[i], h'.promises[i])
    {
      assert h'.promises[..|h.promises|][i] == h'.promises[i];
    }
  }

  lemma InPrefix<T>(x: T, a: seq<T>, b: seq<T>)
    requires x in a && a <= b
    ensures x in b
  {
    var i :| 0 <= i < |a| && a[i] == x;
    assert b[i] == x;
  }

  /** An attachment survives later steps that keep reactions and jobs. */
  lemma ViaPersists(h: Heap, jobs: seq<Job>, h': Heap, jobs': seq<Job>, q: PromiseId, d: Capability,
                    onFulfilled: Fn, onRejected: Fn)
    requires AttachedVia(h, jobs, q, d, onFulfilled, onRejected)
    requires ReactionsGrow(h, h') && (forall j :: j in jobs ==> j in jobs')
    ensures AttachedVia(h', jobs', q, d, onFulfilled, onRejected)
  {
    var a, b := h.promises[q], h'.promises[q];
    assert RecordGrows(a, b);
    match a.state
    case Pending(fulfillReactions, rejectReactions) =>
      InPrefix(Reaction(d, onFulfilled), fulfillReactions, b.state.fulfillReactions);
      InPrefix(Reaction(d, onRejected), rejectReactions, b.state.rejectReactions);
    case Fulfilled =>
      assert ReactionJob(Reaction(d, onFulfilled), b.result) in jobs';
    case Rejected =>
      assert ReactionJob(Reaction(d, onRejected), b.result) in jobs';
  }

  /** `Attached` survives later steps that keep reactions and jobs, and holds for any lower bound. */
  lemma AttachedPersists(h: Heap, jobs: seq<Job>, h': Heap, jobs': seq<Job>, q: PromiseId, onFulfilled: Fn, onRejected: Fn,
                         since: nat, since': nat)
    requires Attached(h, jobs, q, onFulfilled, onRejected, since) && since' <= since
    requires ReactionsGrow(h, h') && (forall j :: j in jobs ==> j in jobs')
    ensures Attached(h', jobs', q, onFulfilled, onRejected, since')
  {
    var d :| IsBuiltin(d) && since <= d.promise && AttachedVia(h, jobs, q, d, onFulfilled, onRejected);
    ViaPersists(h, jobs, h', jobs', q, d, onFulfilled, onRejected);
  }

  /**
   * `then` on promise `q` attaches its two handlers to `q`, on behalf of the
   * fresh derived capability it builds, and keeps every other reaction.
   */
  lemma ThenAttaches(h: Heap, q: PromiseId, onFulfilled: Value, onRejected: Value)
    ensures var r := PromiseThen(h, PromiseRef(q), onFulfilled, onRejected);
            && ReactionsGrow(h, r.heap)
            && (q < |h.promises| ==>
                  Attached(r.heap, r.jobs, q, FulfillHandler(onFulfilled), RejectHandler(onRejected), |h.promises|))
  {
    var (h1, cap) := NewPromiseCapability(h, PromiseCtor).value;
    var r := PerformPromiseThen(h1, q, onFulfilled, onRejected, cap);
    assert PromiseThen(h, PromiseRef(q), onFulfilled, onRejected) == r;
    AppendedGrows(h, h1);
    if q < |h.promises| {
      var fulfillReaction := Reaction(cap, FulfillHandler(onFulfilled));
      var rejectReaction := Reaction(cap, RejectHandler(onRejected));
      match h.promises[q].state {
        case Pending(fulfillReactions, rejectReactions) =>
          var rec := r.heap.promises[q];
          assert rec.state.fulfillReactions[|fulfillReactions|] == fulfillReaction;
          assert rec.state.rejectReactions[|rejectReactions|] == rejectReaction;
          assert RecordGrows(h1.promises[q], rec);
          assert ReactionsGrow(h1, r.heap);
        case Fulfilled =>
          assert r.jobs[0] == ReactionJob(fulfillReaction, h.promises[q].result);
        case Rejected =>
          assert r.jobs[0] == ReactionJob(rejectReaction, h.promises[q].result);
      }
      assert AttachedVia(r.heap, r.jobs, q, cap, FulfillHandler(onFulfilled), RejectHandler(onRejected));
      assert IsBuiltin(cap) && |h.promises| <= cap.promise;
    }
    ReactionsGrowTrans(h, h1, r.heap);
  }

  /**
   * What `Promise.resolve` made of element `x` on the way from `h` to `h'`:
   * `x` itself when it is one of the library's promises, otherwise a promise
   * allocated on the way, which for a primitive `x` is fulfilled with `x`.
   */
  predicate TargetOf(h: Heap, h': Heap, x: Value, t: PromiseId) {
    && (x.PromiseRef? ==> t == x.promise)
    && (!x.PromiseRef? ==> |h.promises| <= t < |h'.promises|)
    && (TypeOf(x) != "object" ==> t < |h'.promises| && h'.promises[t] == PromiseRecord(Fulfilled, x))
  }

  /** `TargetOf` for every element visited. */
  predicate TargetsResolved(h: Heap, h': Heap, xs: seq<Value>, targets: seq<PromiseId>)
    requires |targets| == |xs|
  {
    forall k :: 0 <= k < |xs| ==> TargetOf(h, h', xs[k], targets[k])
  }

  lemma TargetsAppend(h: Heap, mid: Heap, h': Heap, xs1: seq<Value>, targets1: seq<PromiseId>,
                      xs2: seq<Value>, targets2: seq<PromiseId>)
    requires |targets1| == |xs1| && |targets2| == |xs2|
    requires ReactionsGrow(h, mid) && ReactionsGrow(mid, h')
    requires TargetsResolved(h, mid, xs1, targets1) && TargetsResolved(mid, h', xs2, targets2)
    ensures TargetsResolved(h, h', xs1 + xs2, targets1 + targets2)
  {
    var xs, targets, n := xs1 + xs2, targets1 + targets2, |xs1|;
    forall k | 0 <= k < |xs|
      ensures TargetOf(h, h', xs[k], targets[k])
    {
      if k < n {
        assert xs[k] == xs1[k] && targets[k] == targets1[k];
        assert TargetOf(h, mid, xs1[k], targets1[k]);
        if !xs[k].PromiseRef? {
          assert RecordGrows(mid.promises[targets[k]], h'.promises[targets[k]]);
        }
      } else {
        assert xs[k] == xs2[k - n] && targets[k] == targets2[k - n];
        assert TargetOf(mid, h', xs2[k - n], targets2[k - n]);
      }
    }
  }

  // ---------------------------------------------------------------------------
  // Promise.all
  // ---------------------------------------------------------------------------

  /**
   * One pass of the `performPromiseAll` loop attaches the resolve element
   * function with index `index` and a fresh, unset cell, together with the
   * capability's reject, to the promise `Promise.resolve` made of the
   * element: the element itself when it is one of the library's promises,
   * otherwise a fresh promise, already fulfilled with the element when that
   * is a primitive. Cells that existed before are left as they were.
   */
  lemma AllElementWiring(h: Heap, x: Value, index: nat, values: ArrayId, remaining: CounterId,
                         cap: Capability, o: Oracle)
    returns (cell: FlagId, target: PromiseId)
    ensures var r := AllElement(h, x, index, values, remaining, cap, o);
            AllWired(h, r.heap, r.jobs, [x], [cell], [target], index, values, remaining, cap)
  {
    var h1 := h.StoreElement(values, |h.Array(values)|, Undefined);
    var nextPromise := PromiseResolve(h1, x, o);
    cell, target := |nextPromise.heap.flags|, nextPromise.completion.value.promise;
    assert h1.promises == h.promises && h1.flags == h.flags;
    if TypeOf(x) != "object" {
      ResolveOfPrimitiveIsFulfilled(h1, x, o);
    }
    ResolvedElementWiring(h, nextPromise, x, target, index, values, remaining, cap);
  }

  /**
   * The second half of one pass: once `Promise.resolve` has produced
   * `nextPromise`, the fresh cell and the reactions on its promise.
   */
  lemma ResolvedElementWiring(h: Heap, nextPromise: Step, x: Value, target: PromiseId, index: nat,
                              values: ArrayId, remaining: CounterId, cap: Capability)
    requires nextPromise.completion == Normal(PromiseRef(target))
    requires |nextPromise.heap.promises| >= |h.promises| && nextPromise.heap.promises[..|h.promises|] == h.promises
    requires |nextPromise.heap.flags| >= |h.flags| && nextPromise.heap.flags[..|h.flags|] == h.flags
    requires x.PromiseRef? ==> target == x.promise
    requires !x.PromiseRef? ==> |h.promises| <= target < |nextPromise.heap.promises|
    requires TypeOf(x) != "object" ==> nextPromise.heap.promises[target] == PromiseRecord(Fulfilled, x)
    ensures var (h2, cell) := NewFlag(nextPromise.heap);
            var element := AllResolveElement(cell, index, values, cap, remaining);
            var r := Chain(nextPromise, PromiseThen(h2.AddToCounter(remaining, 1), PromiseRef(target), Func(element), Func(cap.reject)));
            AllWired(h, r.heap, r.jobs, [x], [cell], [target], index, values, remaining, cap)
  {
    var (h2, cell) := NewFlag(nextPromise.heap);
    var element := AllResolveElement(cell, index, values, cap, remaining);
    var h3 := h2.AddToCounter(remaining, 1);
    var attached := PromiseThen(h3, PromiseRef(target), Func(element), Func(cap.reject));
    var r := Chain(nextPromise, attached);
    AppendedGrows(h, nextPromise.heap);
    ThenAttaches(h3, target, Func(element), Func(cap.reject));
    ReactionsGrowTrans(h, h3, r.heap);
    assert r.heap.flags == nextPromise.heap.flags + [false] + [false];
    assert cell == |nextPromise.heap.flags| && !r.heap.flags[cell];
    assert r.heap.flags[..|h.flags|] == nextPromise.heap.flags[..|h.flags|] == h.flags;
    if !x.PromiseRef? {
      assert RecordGrows(h3.promises[target], r.heap.promises[target]);
    }
    var ok := x.PromiseRef? ==> x.promise < |h.promises|;
    if ok {
      AttachedPersists(attached.heap, attached.jobs, r.heap, r.jobs, target, element, cap.reject, |h3.promises|, |h.promises|);
    }
    WiredOne(h, r.heap, r.jobs, x, cell, target, index, values, remaining, cap);
  }

  lemma WiredOne(h: Heap, h': Heap, jobs: seq<Job>, x: Value, cell: FlagId, target: PromiseId,
                 index: nat, values: ArrayId, remaining: CounterId, cap: Capability)
    requires |h.flags| <= cell < |h'.flags| && !h'.flags[cell] && h'.flags[..|h.flags|] == h.flags
    requires ReactionsGrow(h, h') && TargetOf(h, h', x, target)
    requires (x.PromiseRef? ==> x.promise < |h.promises|) ==>
               Attached(h', jobs, target, AllResolveElement(cell, index, values, cap, remaining), cap.reject, |h.promises|)
    ensures AllWired(h, h', jobs, [x], [cell], [target], index, values, remaining, cap)
  {
  }

  /**
   * What a stretch of the `performPromiseAll` loop from `h` to `h'` did for
   * the elements `xs` it visited, the first with index `index`: element k's
   * promise `targets[k]` has the resolve element function with index
   * `index + k` and cell `cells[k]` attached, with the capability's reject,
   * on behalf of a derived capability allocated during the stretch; that
   * promise is what `TargetOf` says. The cells are fresh, increasing and
   * still unset; older cells and reactions are kept.
   */
  ghost predicate AllWired(h: Heap, h': Heap, jobs: seq<Job>, xs: seq<Value>, cells: seq<FlagId>, targets: seq<PromiseId>,
                           index: nat, values: ArrayId, remaining: CounterId, cap: Capability) {
    && |cells| == |xs| && |targets| == |xs|
    && ReactionsGrow(h, h')
    && CellsFresh(h, h', cells)
    && TargetsResolved(h, h', xs, targets)
    && ElementsAttached(h, h', jobs, xs, cells, targets, index, values, remaining, cap)
  }

  /** `cells` were allocated on the way from `h` to `h'`, in increasing order, and are unset in `h'`. */
  predicate CellsFresh(h: Heap, h': Heap, cells: seq<FlagId>) {
    && |h.flags| <= |h'.flags| && h'.flags[..|h.flags|] == h.flags
    && (forall k :: 0 <= k < |cells| ==> |h.flags| <= cells[k] < |h'.flags| && !h'.flags[cells[k]])
    && (forall i, j :: 0 <= i < j < |cells| ==> cells[i] < cells[j])
  }

  /** Element k's promise has the element function with index `index + k` and the capability's reject attached. */
  ghost predicate ElementsAttached(h: Heap, h': Heap, jobs: seq<Job>, xs: seq<Value>, cells: seq<FlagId>,
                                   targets: seq<PromiseId>, index: nat, values: ArrayId, remaining: CounterId,
                                   cap: Capability)
    requires |cells| == |xs| && |targets| == |xs|
  {
    forall k :: 0 <= k < |xs| && (xs[k].PromiseRef? ==> xs[k].promise < |h.promises|) ==>
      Attached(h', jobs, targets[k], AllResolveElement(cells[k], index + k, values, cap, remaining), cap.reject, |h.promises|)
  }

  lemma CellsAppend(h: Heap, mid: Heap, h': Heap, cells1: seq<FlagId>, cells2: seq<FlagId>)
    requires CellsFresh(h, mid, cells1) && CellsFresh(mid, h', cells2)
    ensures CellsFresh(h, h', cells1 + cells2)
  {
    var cells, n := cells1 + cells2, |cells1|;
    assert h'.flags[..|h.flags|] == h.flags by {
      assert h'.flags[..|h.flags|] == h'.flags[..|mid.flags|][..|h.flags|];
    }
    forall k | 0 <= k < n
      ensures |h.flags| <= cells[k] < |h'.flags| && !h'.flags[cells[k]]
    {
      assert h'.flags[..|mid.flags|][cells1[k]] == h'.flags[cells1[k]];
    }
    forall k | n <= k < |cells|
      ensures |h.flags| <= cells[k] < |h'.flags| && !h'.flags[cells[k]]
    {
      assert cells[k] == cells2[k - n];
    }
    forall i, j | 0 <= i < j < |cells|
      ensures cells[i] < cells[j]
    {
      if j < n {
        assert cells[i] == cells1[i] && cells[j] == cells1[j];
      } else if i < n {
        assert cells[i] == cells1[i] && cells[j] == cells2[j - n];
      } else {
        assert cells[i] == cells2[i - n] && cells[j] == cells2[j - n];
      }
    }
  }

  lemma AttachedAppend(h: Heap, mid: Heap, h': Heap, jobs1: seq<Job>, jobs2: seq<Job>,
                       xs1: seq<Value>, cells1: seq<FlagId>, targets1: seq<PromiseId>,
                       xs2: seq<Value>, cells2: seq<FlagId>, targets2: seq<PromiseId>,
                       index: nat, values: ArrayId, remaining: CounterId, cap: Capability)
    requires |cells1| == |xs1| && |targets1| == |xs1| && |cells2| == |xs2| && |targets2| == |xs2|
    requires ReactionsGrow(h, mid) && ReactionsGrow(mid, h')
    requires ElementsAttached(h, mid, jobs1, xs1, cells1, targets1, index, values, remaining, cap)
    requires ElementsAttached(mid, h', jobs2, xs2, cells2, targets2, index + |xs1|, values, remaining, cap)
    ensures ElementsAttached(h, h', jobs1 + jobs2, xs1 + xs2, cells1 + cells2, targets1 + targets2, index, values, remaining, cap)
  {
    var xs, cells, targets, jobs := xs1 + xs2, cells1 + cells2, targets1 + targets2, jobs1 + jobs2;
    var n := |xs1|;
    forall k | 0 <= k < |xs| && (xs[k].PromiseRef? ==> xs[k].promise < |h.promises|)
      ensures Attached(h', jobs, targets[k], AllResolveElement(cells[k], index + k, values, cap, remaining), cap.reject, |h.promises|)
    {
      var element := AllResolveElement(cells[k], index + k, values, cap, remaining);
      if k < n {
        assert xs[k] == xs1[k] && targets[k] == targets1[k] && cells[k] == cells1[k];
        AttachedPersists(mid, jobs1, h', jobs, targets[k], element, cap.reject, |h.promises|, |h.promises|);
      } else {
        assert xs[k] == xs2[k - n] && targets[k] == targets2[k - n] && cells[k] == cells2[k - n];
        assert index + k == index + n + (k - n);
        AttachedPersists(h', jobs2, h', jobs, targets[k], element, cap.reject, |mid.promises|, |h.promises|);
      }
    }
  }

  /** Two consecutive stretches of the loop make one. */
  lemma WiredAppend(h: Heap, mid: Heap, h': Heap, jobs1: seq<Job>, jobs2: seq<Job>,
                    xs1: seq<Value>, cells1: seq<FlagId>, targets1: seq<PromiseId>,
                    xs2: seq<Value>, cells2: seq<FlagId>, targets2: seq<PromiseId>,
                    index: nat, values: ArrayId, remaining: CounterId, cap: Capability)
    requires AllWired(h, mid, jobs1, xs1, cells1, targets1, index, values, remaining, cap)
    requires AllWired(mid, h', jobs2, xs2, cells2, targets2, index + |xs1|, values, remaining, cap)
    ensures AllWired(h, h', jobs1 + jobs2, xs1 + xs2, cells1 + cells2, targets1 + targets2, index, values, remaining, cap)
  {
    ReactionsGrowTrans(h, mid, h');
    CellsAppend(h, mid, h', cells1, cells2);
    AttachedAppend(h, mid, h', jobs1, jobs2, xs1, cells1, targets1, xs2, cells2, targets2, index, values, remaining, cap);
    TargetsAppend(h, mid, h', xs1, targets1, xs2, targets2);
  }

  /**
   * The `performPromiseAll` loop attaches, for the k-th element it visits,
   * the resolve element function with index `index + k` and its own cell to
   * that element's promise. The cells are fresh, increasing, and still
   * unset when the loop ends.
   */
  lemma {:induction false} AllLoopWiring(h: Heap, it: Iterator, index: nat, values: ArrayId, remaining: CounterId,
                                         cap: Capability, o: Oracle)
    returns (cells: seq<FlagId>, targets: seq<PromiseId>)
    ensures var r := AllLoop(h, it, index, values, remaining, cap, o);
            AllWired(h, r.heap, r.jobs, Visit(it), cells, targets, index, values, remaining, cap)
    decreases Remaining(it)
  {
    var (it', more) := Next(it);
    if !more {
      cells, targets := [], [];
      assert ReactionsGrow(h, h);
    } else {
      var x := GetCurrent(it');
      var body := AllElement(h, x, index, values, remaining, cap, o);
      var cell, target := AllElementWiring(h, x, index, values, remaining, cap, o);
      var cells', targets' := AllLoopWiring(body.heap, it', index + 1, values, remaining, cap, o);
      var rest := AllLoop(body.heap, it', index + 1, values, remaining, cap, o);
      AllLoopStep(h, it, index, values, remaining, cap, o);
      WiredAppend(h, body.heap, rest.heap, body.jobs, rest.jobs, [x], [cell], [target],
                  Visit(it'), cells', targets', index, values, remaining, cap);
      cells, targets := [cell] + cells', [target] + targets';
      assert AllWired(h, rest.heap, body.jobs + rest.jobs, [x] + Visit(it'), cells, targets, index, values, remaining, cap);
    }
  }

  /** When none of the cells `ids` is set, all of them count as unset. */
  lemma {:induction false} UnsetCountAllUnset(cells: seq<bool>, ids: seq<FlagId>)
    requires forall k :: 0 <= k < |ids| ==> ids[k] < |cells| && !cells[ids[k]]
    ensures UnsetCount(cells, ids) == |ids|
    decreases |ids|
  {
    if |ids| > 0 {
      UnsetCountAllUnset(cells, ids[1..]);
    }
  }

  /**
   * The state `performPromiseAll`, started on heap `h`, leaves behind in
   * heap `r` with jobs `jobs`, for elements `xs`: one resolve element
   * function per element, with the cells `cells`, the k-th (and the
   * capability's reject) attached to promise `targets[k]` on behalf of a
   * derived capability allocated after `h`. That promise is the element
   * itself when it is one of the library's promises, and otherwise a fresh
   * one, fulfilled with the element when that is a primitive. The
   * bookkeeping invariant holds for the cells, and while any element is
   * outstanding the capability's promise is pending with its cell `g` unset.
   */
  ghost predicate AllStarted(h: Heap, r: Heap, jobs: seq<Job>, xs: seq<Value>, cells: seq<FlagId>,
                             targets: seq<PromiseId>, cap: Capability, g: FlagId) {
    var group := Group(cells, |h.arrays|, |h.counters|, cap);
    && |cells| == |xs| && |targets| == |xs|
    && Tracks(r, group)
    && TargetsResolved(h, r, xs, targets)
    && (forall k :: 0 <= k < |xs| && (xs[k].PromiseRef? ==> xs[k].promise < |h.promises|) ==>
          Attached(r, jobs, targets[k], ElementFn(group, k), cap.reject, |h.promises|))
    && (|xs| > 0 ==> r.IsPending(cap.promise) && !r.Flag(g))
  }

  /**
   * `performPromiseAll` with a capability of the library's `Promise` that
   * is still pending creates one resolve element function per element, with
   * fresh, distinct, unset cells, and attaches the k-th, together with the
   * capability's reject, to the promise of the k-th element. Afterwards the
   * bookkeeping invariant holds for them, so `ElementCall` applies to each.
   */
  lemma PerformPromiseAllWiring(h: Heap, it: Iterator, cap: Capability, g: FlagId, o: Oracle)
    returns (cells: seq<FlagId>, targets: seq<PromiseId>)
    requires BuiltinCapability(cap, g) && h.IsPending(cap.promise) && !h.Flag(g) && g < |h.flags|
    ensures var r := PerformPromiseAll(h, it, cap, o);
            AllStarted(h, r.heap, r.jobs, Visit(it), cells, targets, cap, g)
  {
    var values := |h.arrays|;
    var remaining := |h.counters|;
    var h1 := h.(arrays := h.arrays + [[]], counters := h.counters + [1]);
    PerformPromiseAllCounts(h, it, cap, g, o);
    cells, targets := AllLoopWiring(h1, it, 0, values, remaining, cap, o);
    var looped := AllLoop(h1, it, 0, values, remaining, cap, o);
    var r := PerformPromiseAll(h, it, cap, o);
    if |Visit(it)| > 0 {
      PerformPromiseAllOutstanding(h, it, cap, o);
      WiredToTracks(h, h1, looped.heap, looped.jobs, Visit(it), cells, targets, cap, g, r.heap);
    } else {
      NothingStarted(h, r.heap, r.jobs, Visit(it), cap, g);
      cells, targets := [], [];
    }
  }

  lemma NothingStarted(h: Heap, h': Heap, jobs: seq<Job>, xs: seq<Value>, cap: Capability, g: FlagId)
    requires |xs| == 0 && BuiltinCapability(cap, g)
    requires |h.arrays| < |h'.arrays| && |h'.arrays[|h.arrays|]| == 0
    requires |h.counters| < |h'.counters| && h'.counters[|h.counters|] == 0
    ensures AllStarted(h, h', jobs, xs, [], [], cap, g)
  {
  }

  /**
   * The step from the loop's wiring to the bookkeeping invariant: once the
   * count equals the number of elements, all their cells being unset makes
   * it the unset count.
   */
  lemma WiredToTracks(h: Heap, h1: Heap, looped: Heap, jobs: seq<Job>, xs: seq<Value>, cells: seq<FlagId>,
                      targets: seq<PromiseId>, cap: Capability, g: FlagId, h': Heap)
    requires h1.promises == h.promises && h1.flags == h.flags
    requires AllWired(h1, looped, jobs, xs, cells, targets, 0, |h.arrays|, |h.counters|, cap)
    requires h'.promises == looped.promises && h'.flags == looped.flags
    requires |h.arrays| < |h'.arrays| && |h'.arrays[|h.arrays|]| == |xs|
    requires |h.counters| < |h'.counters| && h'.counters[|h.counters|] == |xs|
    requires BuiltinCapability(cap, g) && h.IsPending(cap.promise) && g < |h.flags| && !h.Flag(g)
    ensures AllStarted(h, h', jobs, xs, cells, targets, cap, g)
  {
    var group := Group(cells, |h.arrays|, |h.counters|, cap);
    assert Distinct(cells);
    UnsetCountAllUnset(h'.flags, cells);
    assert g !in cells by {
      assert forall k :: 0 <= k < |cells| ==> g < cells[k];
    }
    assert RecordGrows(h.promises[cap.promise], h'.promises[cap.promise]);
    assert h'.flags[..|h.flags|][g] == h'.flags[g];
    forall k | 0 <= k < |xs|
      ensures TargetOf(h, h', xs[k], targets[k])
    {
      assert TargetOf(h1, looped, xs[k], targets[k]);
    }
    forall k | 0 <= k < |xs| && (xs[k].PromiseRef? ==> xs[k].promise < |h.promises|)
      ensures Attached(h', jobs, targets[k], ElementFn(group, k), cap.reject, |h.promises|)
    {
      assert ElementFn(group, k) == AllResolveElement(cells[k], 0 + k, |h.arrays|, cap, |h.counters|);
      AttachedPersists(looped, jobs, h', jobs, targets[k], ElementFn(group, k), cap.reject, |h1.promises|, |h.promises|);
    }
  }

  /**
   * A primitive element is resolved at once: after `performPromiseAll` the
   * job that runs its resolve element function with the element itself is
   * already queued, on behalf of a derived capability of the library's own
   * allocated during the call.
   */
  lemma PrimitiveElementQueued(h: Heap, r: Heap, jobs: seq<Job>, xs: seq<Value>, cells: seq<FlagId>,
                               targets: seq<PromiseId>, cap: Capability, g: FlagId, k: nat)
    returns (d: Capability)
    requires AllStarted(h, r, jobs, xs, cells, targets, cap, g)
    requires k < |xs| && TypeOf(xs[k]) != "object"
    ensures IsBuiltin(d) && |h.promises| <= d.promise
    ensures ReactionJob(Reaction(d, ElementFn(Group(cells, |h.arrays|, |h.counters|, cap), k)), xs[k]) in jobs
  {
    var group := Group(cells, |h.arrays|, |h.counters|, cap);
    assert TargetOf(h, r, xs[k], targets[k]);
    d :| IsBuiltin(d) && |h.promises| <= d.promise && AttachedVia(r, jobs, targets[k], d, ElementFn(group, k), cap.reject);
  }

  // ---------------------------------------------------------------------------
  // Promise.race
  // ---------------------------------------------------------------------------

  /**
   * What a stretch of the `performPromiseRace` loop from `h` to `h'` did for
   * the elements `xs`: element k's promise `targets[k]`, as `TargetOf`
   * describes it, has the capability's own resolve and reject attached on
   * behalf of a derived capability allocated during the stretch; no
   * reaction of `h` is lost.
   */
  ghost predicate RaceWired(h: Heap, h': Heap, jobs: seq<Job>, xs: seq<Value>, targets: seq<PromiseId>, cap: Capability) {
    && |targets| == |xs|
    && ReactionsGrow(h, h')
    && TargetsResolved(h, h', xs, targets)
    && (forall k :: 0 <= k < |xs| && (xs[k].PromiseRef? ==> xs[k].promise < |h.promises|) ==>
          Attached(h', jobs, targets[k], cap.resolve, cap.reject, |h.promises|))
  }

  /** One pass of the race loop, once `Promise.resolve` has produced `nextPromise`. */
  lemma ResolvedRaceWiring(h: Heap, nextPromise: Step, x: Value, target: PromiseId, cap: Capability)
    requires nextPromise.completion == Normal(PromiseRef(target))
    requires |nextPromise.heap.promises| >= |h.promises| && nextPromise.heap.promises[..|h.promises|] == h.promises
    requires x.PromiseRef? ==> target == x.promise
    requires !x.PromiseRef? ==> |h.promises| <= target < |nextPromise.heap.promises|
    requires TypeOf(x) != "object" ==> nextPromise.heap.promises[target] == PromiseRecord(Fulfilled, x)
    ensures var attached := PromiseThen(nextPromise.heap, PromiseRef(target), Func(cap.resolve), Func(cap.reject));
            && attached.completion.Normal?
            && RaceWired(h, attached.heap, nextPromise.jobs + attached.jobs, [x], [target], cap)
  {
    var attached := PromiseThen(nextPromise.heap, PromiseRef(target), Func(cap.resolve), Func(cap.reject));
    AppendedGrows(h, nextPromise.heap);
    ThenAttaches(nextPromise.heap, target, Func(cap.resolve), Func(cap.reject));
    ReactionsGrowTrans(h, nextPromise.heap, attached.heap);
    if !x.PromiseRef? {
      assert RecordGrows(nextPromise.heap.promises[target], attached.heap.promises[target]);
    }
    assert TargetOf(h, attached.heap, x, target);
    if x.PromiseRef? ==> x.promise < |h.promises| {
      AttachedPersists(attached.heap, attached.jobs, attached.heap, nextPromise.jobs + attached.jobs,
                       target, cap.resolve, cap.reject, |nextPromise.heap.promises|, |h.promises|);
    }
  }

  /** One pass of the race loop attaches the capability's resolve and reject to the element's promise. */
  lemma RaceElementWiring(h: Heap, x: Value, cap: Capability, o: Oracle) returns (target: PromiseId)
    ensures var nextPromise := PromiseResolve(h, x, o);
            var attached := PromiseThen(nextPromise.heap, nextPromise.completion.value, Func(cap.resolve), Func(cap.reject));
            && attached.completion.Normal?
            && RaceWired(h, attached.heap, nextPromise.jobs + attached.jobs, [x], [target], cap)
  {
    var nextPromise := PromiseResolve(h, x, o);
    target := nextPromise.completion.value.promise;
    if TypeOf(x) != "object" {
      ResolveOfPrimitiveIsFulfilled(h, x, o);
    }
    ResolvedRaceWiring(h, nextPromise, x, target, cap);
  }

  /** One turn of the `performPromiseRace` loop over a non-exhausted iterator. */
  lemma RaceLoopStep(h: Heap, it: Iterator, cap: Capability, o: Oracle)
    requires Next(it).1
    ensures var it' := Next(it).0;
            var nextPromise := PromiseResolve(h, GetCurrent(it'), o);
            var attached := PromiseThen(nextPromise.heap, nextPromise.completion.value, Func(cap.resolve), Func(cap.reject));
            attached.completion.Normal? ==>
              var rest := RaceLoop(attached.heap, it', cap, o);
              && Visit(it) == [GetCurrent(it')] + Visit(it')
              && RaceLoop(h, it, cap, o) == Chain(nextPromise, Chain(attached, rest))
  {
  }

  /** Running steps one after another does not depend on how they are grouped. */
  lemma ChainAssociates(a: Step, b: Step, c: Step)
    ensures Chain(a, Chain(b, c)) == Chain(Chain(a, b), c)
  {
    assert a.jobs + (b.jobs + c.jobs) == (a.jobs + b.jobs) + c.jobs;
  }

  /** Two consecutive stretches of the race loop make one. */
  lemma RaceWiredAppend(h: Heap, mid: Heap, h': Heap, jobs1: seq<Job>, jobs2: seq<Job>,
                        xs1: seq<Value>, targets1: seq<PromiseId>, xs2: seq<Value>, targets2: seq<PromiseId>,
                        cap: Capability)
    requires RaceWired(h, mid, jobs1, xs1, targets1, cap) && RaceWired(mid, h', jobs2, xs2, targets2, cap)
    ensures RaceWired(h, h', jobs1 + jobs2, xs1 + xs2, targets1 + targets2, cap)
  {
    ReactionsGrowTrans(h, mid, h');
    TargetsAppend(h, mid, h', xs1, targets1, xs2, targets2);
    var xs, targets, jobs, n := xs1 + xs2, targets1 + targets2, jobs1 + jobs2, |xs1|;
    forall k | 0 <= k < |xs| && (xs[k].PromiseRef? ==> xs[k].promise < |h.promises|)
      ensures Attached(h', jobs, targets[k], cap.resolve, cap.reject, |h.promises|)
    {
      if k < n {
        assert xs[k] == xs1[k] && targets[k] == targets1[k];
        AttachedPersists(mid, jobs1, h', jobs, targets[k], cap.resolve, cap.reject, |h.promises|, |h.promises|);
      } else {
        assert xs[k] == xs2[k - n] && targets[k] == targets2[k - n];
        AttachedPersists(h', jobs2, h', jobs, targets[k], cap.resolve, cap.reject, |mid.promises|, |h.promises|);
      }
    }
  }

  /**
   * The `performPromiseRace` loop attaches the capability's own resolve and
   * reject to the promise of every element it visits, in order.
   */
  lemma {:induction false} RaceLoopWiring(h: Heap, it: Iterator, cap: Capability, o: Oracle)
    returns (targets: seq<PromiseId>)
    ensures var r := RaceLoop(h, it, cap, o);
            RaceWired(h, r.heap, r.jobs, Visit(it), targets, cap)
    decreases Remaining(it)
  {
    var (it', more) := Next(it);
    if !more {
      targets := [];
      assert ReactionsGrow(h, h);
    } else {
      var x := GetCurrent(it');
      var nextPromise := PromiseResolve(h, x, o);
      var attached := PromiseThen(nextPromise.heap, nextPromise.completion.value, Func(cap.resolve), Func(cap.reject));
      var target := RaceElementWiring(h, x, cap, o);
      var targets' := RaceLoopWiring(attached.heap, it', cap, o);
      var rest := RaceLoop(attached.heap, it', cap, o);
      RaceLoopStep(h, it, cap, o);
      ChainAssociates(nextPromise, attached, rest);
      RaceWiredAppend(h, attached.heap, rest.heap, nextPromise.jobs + attached.jobs, rest.jobs,
                      [x], [target], Visit(it'), targets', cap);
      targets := [target] + targets';
    }
  }

  /**
   * `performPromiseRace` leaves the capability's resolve and reject
   * attached to the promise of every element; `RaceReactionsAfterSettling`
   * shows that once one of them has settled the race promise the others
   * leave it alone.
   */
  lemma PerformPromiseRaceWiring(h: Heap, it: Iterator, cap: Capability, o: Oracle)
    returns (targets: seq<PromiseId>)
    ensures var r := PerformPromiseRace(h, it, cap, o);
            RaceWired(h, r.heap, r.jobs, Visit(it), targets, cap)
  {
    targets := RaceLoopWiring(h, it, cap, o);
  }

  /**
   * The reactions `performPromiseRace` attached to element k's promise run
   * on behalf of a derived capability `d` of the library's own whose
   * promise is not the race promise. So once the race capability's cell
   * `f` is set, neither of them changes the race promise, whatever they
   * are called with.
   */
  lemma RaceReactionsAfterSettling(h: Heap, h': Heap, jobs: seq<Job>, xs: seq<Value>, targets: seq<PromiseId>,
                                   cap: Capability, f: FlagId, k: nat, later: Heap, argument: Value, o: Oracle)
    returns (d: Capability)
    requires RaceWired(h, h', jobs, xs, targets, cap) && BuiltinCapability(cap, f) && cap.promise < |h.promises|
    requires k < |xs| && (xs[k].PromiseRef? ==> xs[k].promise < |h.promises|)
    requires later.Flag(f) && cap.promise < |later.promises|
    ensures AttachedVia(h', jobs, targets[k], d, cap.resolve, cap.reject)
    ensures IsBuiltin(d) && d.promise != cap.promise
    ensures PromiseReactionJob(later, Reaction(d, cap.resolve), argument, o).heap.promises[cap.promise]
         == later.promises[cap.promise]
    ensures PromiseReactionJob(later, Reaction(d, cap.reject), argument, o).heap.promises[cap.promise]
         == later.promises[cap.promise]
  {
    d :| IsBuiltin(d) && |h.promises| <= d.promise && AttachedVia(h', jobs, targets[k], d, cap.resolve, cap.reject);
    var g := d.resolve.alreadyResolved;
    PromiseLemmas.LaterRaceReactionIsIgnored(later, d, g, cap.promise, f, cap.resolve, argument, o);
    PromiseLemmas.LaterRaceReactionIsIgnored(later, d, g, cap.promise, f, cap.reject, argument, o);
  }
}

=== FILE: combinators.dfy ===
/**
 * The static methods of the library's `Promise` (ECMA-262 6th edition,
 * section 25.4.4) and the `Iterator` that `all` and `race` walk.
 * The methods are modelled with `this` bound to the library's `Promise`.
 */
module Combinators {
  import opened Common
  import opened Js
  import opened Promises

  // ---------------------------------------------------------------------------
  // Iterator
  // ---------------------------------------------------------------------------

  /**
   * The library's `Iterator` over anything with a `length`: the iterable, the `length`
   * read once at construction, and `_index`, unset until the first `next`.
   */
  datatype Iterator = Iterator(iterable: Value, length: nat, index: Option<nat>)

  /** `new Iterator(v)`: a falsy argument or one without `length` is rejected. */
  function MakeIterator(v: Value, o: Oracle): (r: Result<Iterator, Value>)
    ensures r.Err? <==> !Truthy(v) || LengthOf(v, o).None?
    ensures r.Err? ==> r.error == TypeErrorValue("Invalid iterable")
    ensures r.Ok? ==> r.value == Iterator(v, LengthOf(v, o).value, None)
  {
    if !Truthy(v) then Err(TypeErrorValue("Invalid iterable"))
    else match LengthOf(v, o)
      case None => Err(TypeErrorValue("Invalid iterable"))
      case Some(n) => Ok(Iterator(v, n, None))
  }

  /** `Iterator.prototype.next`: step `_index` (0 first) and report whether it is in range. */
  function Next(it: Iterator): (r: (Iterator, bool))
    ensures r.0.iterable == it.iterable && r.0.length == it.length && r.0.index.Some?
    ensures r.0.index.value == (if it.index.None? then 0 else it.index.value + 1)
    ensures r.1 <==> r.0.index.value < it.length
  {
    var i := if it.index.None? then 0 else it.index.value + 1;
    (it.(index := Some(i)), i < it.length)
  }

  /** `Iterator.prototype.getCurrent`: the element at `_index`. */
  function GetCurrent(it: Iterator): (r: Value)
    ensures it.index.None? ==> r == Undefined
    ensures it.index.Some? && (it.iterable.ArrayValue? || it.iterable.ArrayLike?) ==>
              r == (if it.index.value < |it.iterable.items| then it.iterable.items[it.index.value] else Undefined)
    ensures it.index.Some? && it.iterable.Prim? && it.iterable.prim.Str? && it.index.value < |it.iterable.prim.s| ==>
              r == Prim(Str([it.iterable.prim.s[it.index.value]]))
    ensures it.index.Some? && !(it.iterable.Prim? || it.iterable.ArrayValue? || it.iterable.ArrayLike?) ==> r == Undefined
  {
    match it.index
    case None => Undefined  // `iterable[undefined]`
    case Some(i) => ElementAt(it.iterable, i)
  }

  /** How many more `next` calls answer true, plus one: the loops' measure. */
  function Remaining(it: Iterator): nat {
    match it.index
    case None => it.length + 1
    case Some(i) => if i < it.length then it.length - i else 0
  }

  /** The elements a `while (it.next()) { ... it.getCurrent() ... }` loop visits. */
  function Visit(it: Iterator): seq<Value>
    decreases Remaining(it)
  {
    var (it', more) := Next(it);
    if more then [GetCurrent(it')] + Visit(it') else []
  }

  // ---------------------------------------------------------------------------
  // Promise.resolve / Promise.reject
  // ---------------------------------------------------------------------------

  /** A fresh capability of the library's `Promise`; the call cannot fail. */
  function FreshCapability(h: Heap): (r: (Heap, Capability))
    ensures var (h', cap) := r;
            && cap == Capability(|h.promises|, ResolveFn(|h.promises|, |h.flags|), RejectFn(|h.promises|, |h.flags|))
            && h'.promises == h.promises + [PromiseRecord(Pending([], []), Undefined)]
            && h'.flags == h.flags + [false]
            && h'.counters == h.counters && h'.arrays == h.arrays
  {
    match NewPromiseCapability(h, PromiseCtor)
    case Ok(r) => r
  }

  /**
   * `Promise.resolve(x)`: a promise of the library is returned as it is;
   * anything else is handed to the resolve function of a fresh capability,
   * whose promise is returned.
   */
  function PromiseResolve(h: Heap, x: Value, o: Oracle): (r: Step)
    ensures x.PromiseRef? ==> r == Step(h, [], Normal(x))
    ensures !x.PromiseRef? ==> r.completion == Normal(PromiseRef(|h.promises|))
    ensures !x.PromiseRef? ==> |r.heap.promises| == |h.promises| + 1 && r.heap.promises[..|h.promises|] == h.promises
    ensures r.completion.Normal? && r.completion.value.PromiseRef?
    ensures r.heap.counters == h.counters && r.heap.arrays == h.arrays
    ensures |r.heap.flags| >= |h.flags| && r.heap.flags[..|h.flags|] == h.flags
    ensures !x.PromiseRef? ==>
              var resolved := ResolveFunction(FreshCapability(h).0, |h.promises|, |h.flags|, x);
              r.heap == resolved.heap && r.jobs == resolved.jobs
  {
    if IsPromise(x) && ConstructorOf(x) == PromiseCtor then Step(h, [], Normal(x))
    else
      var (h1, cap) := FreshCapability(h);
      var resolved := Call(h1, cap.resolve, x, o);
      if resolved.completion.Throw? then resolved
      else Step(resolved.heap, resolved.jobs, Normal(PromiseRef(cap.promise)))
  }

  /**
   * `Promise.reject(reason)` as written: after building a capability it
   * passes the undeclared variable `r`, which in strict code is a
   * ReferenceError, so every call throws and `reason` is never used.
   */
  function PromiseReject(h: Heap, reason: Value): (r: Step)
    ensures r.completion == Throw(ErrorObject(ReferenceError, "r is not defined"))
    ensures r.jobs == []
    ensures r.heap.promises == h.promises + [PromiseRecord(Pending([], []), Undefined)]
  {
    var (h1, _) := FreshCapability(h);
    Step(h1, [], Throw(ErrorObject(ReferenceError, "r is not defined")))
  }

  // ---------------------------------------------------------------------------
  // Promise.all / Promise.race
  // ---------------------------------------------------------------------------

  /**
   * `ifAbruptRejectPromise`: given the completion of the guarded code,
   * answer `undefined` when it completed normally; otherwise reject the
   * capability with the exception and answer what the reject function
   * returned, or the capability's promise if it threw.
   */
  function IfAbruptRejectPromise(h: Heap, c: Completion, cap: Capability, o: Oracle): (r: Step)
    ensures r.completion.Normal?
    ensures c.Normal? ==> r == Step(h, [], Normal(Undefined))
    ensures SameShape(h, r.heap)
    ensures c.Throw? && Call(h, cap.reject, c.exception, o).completion.Throw? ==>
              r.completion == Normal(PromiseRef(cap.promise))
    ensures c.Throw? && IsBuiltin(cap) && h.IsPending(cap.promise) && !h.Flag(cap.resolve.alreadyResolved) ==>
              && r.completion == Normal(Undefined)
              && r.heap.promises[cap.promise] == PromiseRecord(Rejected, c.exception)
              && r.jobs == TriggerPromiseReactions(h.promises[cap.promise].state.rejectReactions, c.exception)
  {
    match c
    case Normal(_) => Step(h, [], Normal(Undefined))
    case Throw(ex) =>
      var rejected := Call(h, cap.reject, ex, o);
      match rejected.completion
      case Normal(v) => rejected
      case Throw(_) => Step(rejected.heap, rejected.jobs, Normal(PromiseRef(cap.promise)))
  }

  /**
   * One pass of the `performPromiseAll` loop body for element `nextValue`:
   * push a hole onto `values`, wrap the element with `Promise.resolve`, make
   * its resolve element function with a fresh `alreadyCalled` cell, count
   * it, and attach the element function and the capability's reject.
   */
  function AllElement(h: Heap, nextValue: Value, index: nat, values: ArrayId, remaining: CounterId,
                      cap: Capability, o: Oracle): (r: Step)
    ensures r.completion.Normal?
    ensures |r.heap.arrays| == |h.arrays| && |r.heap.counters| == |h.counters|
    ensures values < |h.arrays| ==> r.heap.arrays[values] == h.arrays[values] + [Undefined]
    ensures remaining < |h.counters| ==> r.heap.counters[remaining] == h.counters[remaining] + 1
  {
    var h1 := h.StoreElement(values, |h.Array(values)|, Undefined);
    var nextPromise := PromiseResolve(h1, nextValue, o);
    if nextPromise.completion.Throw? then nextPromise
    else
      var (h2, alreadyCalled) := NewFlag(nextPromise.heap);
      var element := AllResolveElement(alreadyCalled, index, values, cap, remaining);
      var h3 := h2.AddToCounter(remaining, 1);
      var attached := PromiseThen(h3, nextPromise.completion.value, Func(element), Func(cap.reject));
      Chain(nextPromise, attached)
  }

  /** The loop of `performPromiseAll`: the body once per element the iterator yields. */
  function AllLoop(h: Heap, it: Iterator, index: nat, values: ArrayId, remaining: CounterId,
                   cap: Capability, o: Oracle): (r: Step)
    ensures r.completion == Normal(Undefined)
    ensures |r.heap.arrays| == |h.arrays| && |r.heap.counters| == |h.counters|
    decreases Remaining(it)
  {
    var (it', more) := Next(it);
    if !more then Step(h, [], Normal(Undefined))
    else
      var body := AllElement(h, GetCurrent(it'), index, values, remaining, cap, o);
      if body.completion.Throw? then body
      else Chain(body, AllLoop(body.heap, it', index + 1, values, remaining, cap, o))
  }

  /**
   * `performPromiseAll`: a fresh `values` array and a count starting at 1;
   * after the loop the count drops by 1, and if it reaches 0 the capability
   * is resolved with `values` at once.
   */
  function PerformPromiseAll(h: Heap, it: Iterator, cap: Capability, o: Oracle): (r: Step)
    ensures |r.heap.arrays| == |h.arrays| + 1 && |r.heap.counters| == |h.counters| + 1
    ensures r.completion.Normal? ==> r.completion == Normal(PromiseRef(cap.promise))
  {
    var values := |h.arrays|;
    var remaining := |h.counters|;
    var h1 := h.(arrays := h.arrays + [[]], counters := h.counters + [1]);
    var looped := AllLoop(h1, it, 0, values, remaining, cap, o);
    if looped.completion.Throw? then looped
    else
      var h2 := looped.heap.AddToCounter(remaining, -1);
      if h2.Counter(remaining) == 0 then
        var resolved := Call(h2, cap.resolve, ArrayValue(h2.Array(values)), o);
        if resolved.completion.Throw? then Chain(looped, resolved)
        else Step(resolved.heap, looped.jobs + resolved.jobs, Normal(PromiseRef(cap.promise)))
      else
        Step(h2, looped.jobs, Normal(PromiseRef(cap.promise)))
  }

  /** The loop of `performPromiseRace`: attach the capability's own resolve and reject to every element. */
  function RaceLoop(h: Heap, it: Iterator, cap: Capability, o: Oracle): (r: Step)
    ensures r.completion == Normal(Undefined)
    decreases Remaining(it)
  {
    var (it', more) := Next(it);
    if !more then Step(h, [], Normal(Undefined))
    else
      var nextPromise := PromiseResolve(h, GetCurrent(it'), o);
      if nextPromise.completion.Throw? then nextPromise
      else
        var attached := PromiseThen(nextPromise.heap, nextPromise.completion.value, Func(cap.resolve), Func(cap.reject));
        if attached.completion.Throw? then Chain(nextPromise, attached)
        else Chain(nextPromise, Chain(attached, RaceLoop(attached.heap, it', cap, o)))
  }

  /** `performPromiseRace`: run the loop and answer the capability's promise. */
  function PerformPromiseRace(h: Heap, it: Iterator, cap: Capability, o: Oracle): (r: Step)
    ensures r.completion == Normal(PromiseRef(cap.promise))
  {
    var looped := RaceLoop(h, it, cap, o);
    if looped.completion.Throw? then looped
    else Step(looped.heap, looped.jobs, Normal(PromiseRef(cap.promise)))
  }

  datatype Combinator = All | Race

  /**
   * The shared body of `Promise.all` and `Promise.race`. Each guarded step
   * goes through `ifAbruptRejectPromise`, whose answer is returned only when
   * truthy. As written, a rejection that succeeds answers `undefined`, so a
   * bad iterable rejects the capability and then falls through: the loop
   * reads `next` of the unset iterator, the second guard's reject is a
   * no-op, and the call returns the unset `result`, `undefined`.
   */
  function PromiseCombinator(h: Heap, kind: Combinator, iterable: Value, o: Oracle): (r: Step) {
    var (h1, cap) := FreshCapability(h);
    var made := MakeIterator(iterable, o);
    var first := IfAbruptRejectPromise(h1, if made.Err? then Throw(made.error) else Normal(Undefined), cap, o);
    if Truthy(first.completion.value) then first
    else
      var performed := match made
        case Err(_) => Step(first.heap, [], Throw(TypeErrorValue("")))  // reading `next` of the unset iterator
        case Ok(it) => if kind == All then PerformPromiseAll(first.heap, it, cap, o)
                       else PerformPromiseRace(first.heap, it, cap, o);
      var second := IfAbruptRejectPromise(performed.heap, performed.completion, cap, o);
      var jobs := first.jobs + performed.jobs + second.jobs;
      if Truthy(second.completion.value) then Step(second.heap, jobs, second.completion)
      else if performed.completion.Throw? then Step(second.heap, jobs, Normal(Undefined))
      else Step(second.heap, jobs, performed.completion)
  }

  /** `Promise.all(iterable)`: it never throws. */
  function PromiseAll(h: Heap, iterable: Value, o: Oracle): (r: Step)
    ensures r.completion.Normal?
  {
    PromiseCombinator(h, All, iterable, o)
  }

  /** `Promise.race(iterable)`: it never throws. */
  function PromiseRace(h: Heap, iterable: Value, o: Oracle): (r: Step)
    ensures r.completion.Normal?
  {
    PromiseCombinator(h, Race, iterable, o)
  }
}

=== FILE: common.dfy ===
/** Small failure-compatible wrappers shared by every module of the model. */
module Common {

  /** `None` stands for JavaScript's `undefined` where the source leaves a slot unset. */
  datatype Option<+T> = None | Some(value: T)

  /** The outcome of an operation that may throw: a value or an error. */
  datatype Result<+T, +E> = Ok(value: T) | Err(error: E)
}

=== FILE: job_queue.dfy ===
/**
 * The job queue of the promise library: a buffer of pending jobs, each paired
 * with the cancellation token its backend issued when the job was scheduled,
 * drained in one batch whenever any of those scheduled callbacks fires; and
 * the ranked choice of the backend at start-up.
 *
 * The module is generic in the job type `J`: running a job is a parameter
 * `exec` that maps a state and a job to the next state plus the jobs the
 * running job enqueued, in the order it enqueued them.
 */
module JobQueue {
  import opened Common

  /** The four scheduling backends, in the order the factory tries them. */
  datatype Backend = Immediate | MsImmediate | CustomImmediate | Timeout

  /** Which host primitives exist. Their behaviour is not modelled, only their presence. */
  datatype Host = Host(
    setImmediate: bool, clearImmediate: bool,
    msSetImmediate: bool, msClearImmediate: bool,
    postMessage: bool, importScripts: bool,
    setTimeout: bool, clearTimeout: bool)

  /** The errors the job handler raises. */
  datatype QueueError =
    | EnqueueUnsupported     // `new TypeError()` from `enqueue` on an unsupported handler
    | NoJobHandlerSupported  // `new Error(NoHandlerMessage)` from the factory

  const NoHandlerMessage: string := "No job handler supported."

  /** Whether backend `b` obtains a scheduling primitive `_run` on `host`. */
  function RunDefined(host: Host, b: Backend): bool {
    match b
    case Immediate => host.setImmediate
    case MsImmediate => host.msSetImmediate
    // the message-passing emulation defines both primitives or neither
    case CustomImmediate => host.postMessage && !host.importScripts
    case Timeout => host.setTimeout
  }

  /** Whether backend `b` obtains a cancellation primitive `_clear` on `host`. */
  function ClearDefined(host: Host, b: Backend): bool {
    match b
    case Immediate => host.clearImmediate
    case MsImmediate => host.msClearImmediate
    case CustomImmediate => host.postMessage && !host.importScripts
    case Timeout => host.clearTimeout
  }

  /** The factory's fixed preference order. */
  const Ranking: seq<Backend> := [Immediate, MsImmediate, CustomImmediate, Timeout]

  /** An opaque token issued by a backend for one scheduled callback. */
  type Token = nat

  /** One buffer position: empty (`undefined`) or a job with its backend token. */
  datatype Slot<J> = Vacant | Occupied(job: J, token: Token)

  /**
   * A job handler. `slots` and `length` are the buffer and its fill count;
   * `scheduled` is the multiset of callbacks the backend still holds, and
   * `nextToken` is the token it will issue next.
   */
  datatype JobHandler<J> = JobHandler(
    backend: Backend,
    run: bool,
    clear: bool,
    slots: seq<Slot<J>>,
    length: nat,
    nextToken: Token,
    scheduled: multiset<Token>)
  {
    /** The buffer always exists, so support means both primitives are defined. */
    predicate IsSupported() {
      run && clear
    }

    /**
     * The buffer is consistent with positions below `lo` already drained:
     * exactly the positions `lo .. length-1` hold jobs, their tokens were
     * already issued, and the backend holds exactly those tokens.
     */
    predicate Window(lo: nat) {
      && lo <= length <= |slots|
      && (forall i :: 0 <= i < lo ==> slots[i].Vacant?)
      && (forall i :: lo <= i < length ==> slots[i].Occupied? && slots[i].token < nextToken)
      && (forall i :: length <= i < |slots| ==> slots[i].Vacant?)
      && scheduled == TokensOf(slots)
    }

    /** The state of a handler between drains. */
    predicate Valid() {
      Window(0)
    }
  }

  /** The handler a backend constructor produces on `host`, with an empty buffer. */
  function NewJobHandler<J>(host: Host, b: Backend): (r: JobHandler<J>)
    ensures r.backend == b && r.Window(0) && JobsOf(r.slots) == [] && r.scheduled == multiset{}
    ensures b == Immediate ==> (r.IsSupported() <==> host.setImmediate && host.clearImmediate)
    ensures b == MsImmediate ==> (r.IsSupported() <==> host.msSetImmediate && host.msClearImmediate)
    ensures b == CustomImmediate ==> (r.IsSupported() <==> host.postMessage && !host.importScripts)
    ensures b == Timeout ==> (r.IsSupported() <==> host.setTimeout && host.clearTimeout)
  {
    JobHandler(b, RunDefined(host, b), ClearDefined(host, b), [], 0, 0, multiset{})
  }

  /** Whether the handler built for `b` on `host` reports itself supported. */
  predicate Supported(host: Host, b: Backend) {
    RunDefined(host, b) && ClearDefined(host, b)
  }

  /** The pending jobs of a buffer, in buffer order. */
  function JobsOf<J>(slots: seq<Slot<J>>): seq<J> {
    if |slots| == 0 then []
    else (if slots[0].Occupied? then [slots[0].job] else []) + JobsOf(slots[1..])
  }

  /** The tokens held by a buffer. */
  function TokensOf<J>(slots: seq<Slot<J>>): multiset<Token> {
    if |slots| == 0 then multiset{}
    else (if slots[0].Occupied? then multiset{slots[0].token} else multiset{}) + TokensOf(slots[1..])
  }

  predicate AllVacant<J>(slots: seq<Slot<J>>) {
    forall i :: 0 <= i < |slots| ==> slots[i].Vacant?
  }

  // ---------------------------------------------------------------------------
  // Backend choice
  // ---------------------------------------------------------------------------

  /** Reference definition: the first backend of `ranked` that is supported on `host`. */
  function FirstSupported(host: Host, ranked: seq<Backend>): (r: Option<Backend>)
    ensures r.Some? ==> r.value in ranked && Supported(host, r.value)
    ensures r.None? <==> forall k :: 0 <= k < |ranked| ==> !Supported(host, ranked[k])
  {
    if |ranked| == 0 then None
    else if Supported(host, ranked[0]) then Some(ranked[0])
    else FirstSupported(host, ranked[1..])
  }

  /**
   * `FirstSupported` picks the backend at position `k` exactly when it is
   * supported and none ranked before it is.
   */
  lemma {:induction false} FirstSupportedIsEarliest(host: Host, ranked: seq<Backend>, k: nat)
    requires k < |ranked| && Supported(host, ranked[k])
    requires forall m :: 0 <= m < k ==> !Supported(host, ranked[m])
    ensures FirstSupported(host, ranked) == Some(ranked[k])
  {
    if k > 0 {
      assert !Supported(host, ranked[0]);
      assert forall m :: 0 <= m < k - 1 ==> ranked[1..][m] == ranked[m + 1];
      FirstSupportedIsEarliest(host, ranked[1..], k - 1);
    }
  }

  /**
   * `JobHandlerFactory.createJobHandler`: construct the backends in ranked
   * order and return the first one that is supported, or fail.
   */
  method CreateJobHandler<J>(host: Host) returns (r: Result<JobHandler<J>, QueueError>)
    ensures r.Ok? <==> FirstSupported(host, Ranking).Some?
    ensures r.Ok? ==> r.value == NewJobHandler(host, FirstSupported(host, Ranking).value)
    ensures r.Ok? ==> r.value.IsSupported() && r.value.Valid() && r.value.length == 0
    ensures r.Err? ==> r.error == NoJobHandlerSupported
  {
    var i := 0;
    while i < |Ranking|
      invariant 0 <= i <= |Ranking|
      invariant FirstSupported(host, Ranking) == FirstSupported(host, Ranking[i..])
    {
      var handler: JobHandler<J> := NewJobHandler(host, Ranking[i]);
      if handler.IsSupported() {
        return Ok(handler);
      }
      assert Ranking[i..][1..] == Ranking[i + 1..];
      i := i + 1;
    }
    return Err(NoJobHandlerSupported);
  }

  // ---------------------------------------------------------------------------
  // Buffer operations
  // ---------------------------------------------------------------------------

  /**
   * Store `job` at position `length` and ask the backend to schedule a drain,
   * keeping the token it returns. JavaScript arrays grow on assignment, so a
   * full buffer is extended.
   */
  function Push<J>(h: JobHandler<J>, job: J): (h': JobHandler<J>)
    ensures h'.length == h.length + 1 && h'.nextToken == h.nextToken + 1
    ensures h'.scheduled == h.scheduled + multiset{h.nextToken}
    ensures h'.backend == h.backend && h'.run == h.run && h'.clear == h.clear
  {
    h.(slots := PushedSlots(h.slots, h.length, Occupied(job, h.nextToken)),
       length := h.length + 1, nextToken := h.nextToken + 1,
       scheduled := h.scheduled + multiset{h.nextToken})
  }

  /**
   * Pushing keeps the buffer consistent, appends the job at the end of the
   * pending order, and schedules a token the backend did not hold.
   */
  lemma PushKeepsWindow<J>(h: JobHandler<J>, job: J, lo: nat)
    requires h.Window(lo)
    ensures Push(h, job).Window(lo)
    ensures JobsOf(Push(h, job).slots) == JobsOf(h.slots) + [job]
    ensures h.nextToken !in h.scheduled
  {
    PushWindow(h, job, Push(h, job), lo);
  }

  lemma PushWindow<J>(h: JobHandler<J>, job: J, h': JobHandler<J>, lo: nat)
    requires h.Window(lo)
    requires h'.length == h.length + 1 && h'.nextToken == h.nextToken + 1
    requires h'.scheduled == h.scheduled + multiset{h.nextToken}
    requires h'.slots == PushedSlots(h.slots, h.length, Occupied(job, h.nextToken))
    ensures h'.Window(lo) && JobsOf(h'.slots) == JobsOf(h.slots) + [job] && h.nextToken !in h.scheduled
  {
    TokensBelow(h.slots, h.nextToken);
    assert AllVacant(h.slots[h.length..]) by {
      forall i | 0 <= i < |h.slots[h.length..]| ensures h.slots[h.length..][i].Vacant? {
        assert h.slots[h.length..][i] == h.slots[h.length + i];
      }
    }
    PushedSlotsContents(h.slots, h.length, Occupied(job, h.nextToken));
  }

  /** The buffer after storing `slot` at position `k` of a JavaScript array. */
  function PushedSlots<J>(slots: seq<Slot<J>>, k: nat, slot: Slot<J>): (r: seq<Slot<J>>)
    ensures |r| == if k < |slots| then |slots| else k + 1
    ensures forall i :: 0 <= i < |r| && i != k ==> r[i] == if i < |slots| then slots[i] else Vacant
    ensures k < |r| && r[k] == slot
  {
    if k < |slots| then slots[k := slot]
    else slots + seq(k - |slots|, _ => Vacant) + [slot]
  }

  lemma PushedSlotsContents<J>(slots: seq<Slot<J>>, k: nat, slot: Slot<J>)
    requires k <= |slots| && AllVacant(slots[k..]) && slot.Occupied?
    ensures JobsOf(PushedSlots(slots, k, slot)) == JobsOf(slots) + [slot.job]
    ensures TokensOf(PushedSlots(slots, k, slot)) == TokensOf(slots) + multiset{slot.token}
  {
    if k < |slots| {
      OverwriteVacant(slots, k, slot);
    } else {
      var pad: seq<Slot<J>> := seq(k - |slots|, _ => Vacant);
      assert |pad| == 0;
      assert PushedSlots(slots, k, slot) == slots + [slot];
      SplitJobs(slots, [slot]);
      SplitTokens(slots, [slot]);
      assert JobsOf([slot]) == [slot.job];
      assert TokensOf([slot]) == multiset{slot.token};
    }
  }

  lemma OverwriteVacant<J>(slots: seq<Slot<J>>, k: nat, slot: Slot<J>)
    requires k < |slots| && AllVacant(slots[k..]) && slot.Occupied?
    ensures JobsOf(slots[k := slot]) == JobsOf(slots) + [slot.job]
    ensures TokensOf(slots[k := slot]) == TokensOf(slots) + multiset{slot.token}
  {
    var pre, old_, rest := slots[..k], slots[k], slots[k + 1..];
    assert slots == pre + [old_] + rest;
    assert slots[k := slot] == pre + [slot] + rest;
    assert old_.Vacant?;
    assert AllVacant(rest) by {
      forall i | 0 <= i < |rest| ensures rest[i].Vacant? { assert rest[i] == slots[k..][i + 1]; }
    }
    VacantSlots(rest);
    SplitThree(pre, [old_], rest);
    SplitThree(pre, [slot], rest);
    assert JobsOf([slot]) == [slot.job];
    assert TokensOf([slot]) == multiset{slot.token};
    assert JobsOf([old_]) == [];
    assert TokensOf([old_]) == multiset{};
  }

  /** Drop the job at `index` and cancel its backend token (`_remove`). */
  function Remove<J>(h: JobHandler<J>, index: nat): (h': JobHandler<J>)
    ensures h'.length == h.length && h'.nextToken == h.nextToken
    ensures h'.backend == h.backend && h'.run == h.run && h'.clear == h.clear
    ensures index < |h.slots| ==> h'.slots == h.slots[index := Vacant]
    ensures index < |h.slots| && h.slots[index].Occupied? ==> h'.scheduled == h.scheduled - multiset{h.slots[index].token}
  {
    if index < |h.slots| then
      var cancelled := if h.slots[index].Occupied? then multiset{h.slots[index].token} else multiset{};
      h.(slots := h.slots[index := Vacant], scheduled := h.scheduled - cancelled)
    else
      h
  }

  /** Removing the head of the window advances the window and drops the head job. */
  lemma RemoveAdvancesWindow<J>(h: JobHandler<J>, index: nat)
    requires h.Window(index) && index < h.length
    ensures Remove(h, index).Window(index + 1)
    ensures |JobsOf(h.slots)| > 0 && JobsOf(Remove(h, index).slots) == JobsOf(h.slots)[1..]
  {
    VacateHead(h.slots, index);
  }

  /**
   * In a buffer whose first occupied position is `i`, vacating `i` removes
   * the first pending job and exactly one copy of its token.
   */
  lemma {:induction false} VacateHead<J>(slots: seq<Slot<J>>, i: nat)
    requires i < |slots| && slots[i].Occupied?
    requires forall k :: 0 <= k < i ==> slots[k].Vacant?
    ensures |JobsOf(slots)| > 0 && JobsOf(slots)[0] == slots[i].job
    ensures JobsOf(slots[i := Vacant]) == JobsOf(slots)[1..]
    ensures TokensOf(slots[i := Vacant]) == TokensOf(slots) - multiset{slots[i].token}
  {
    var cleared := slots[i := Vacant];
    if i == 0 {
      assert cleared[1..] == slots[1..];
    } else {
      assert cleared[1..] == slots[1..][i - 1 := Vacant];
      VacateHead(slots[1..], i - 1);
    }
  }

  /**
   * `enqueue`: refuse on an unsupported handler, otherwise append the job and
   * schedule a drain. (The source's checks on `action` and `args` always pass
   * for the two job kinds the library enqueues.)
   */
  function Enqueue<J>(h: JobHandler<J>, job: J): (r: Result<JobHandler<J>, QueueError>)
    ensures r.Ok? <==> h.IsSupported()
    ensures r.Err? ==> r.error == EnqueueUnsupported
    ensures r.Ok? ==> r.value == Push(h, job)
  {
    if !h.IsSupported() then Err(EnqueueUnsupported) else Ok(Push(h, job))
  }

  /** Append every job of `jobs`, in order. */
  function PushAll<J>(h: JobHandler<J>, jobs: seq<J>): (h': JobHandler<J>)
    ensures h'.length == h.length + |jobs| && h'.nextToken == h.nextToken + |jobs|
    ensures h'.backend == h.backend && h'.run == h.run && h'.clear == h.clear
    decreases |jobs|
  {
    if |jobs| == 0 then h else PushAll(Push(h, jobs[0]), jobs[1..])
  }

  lemma {:induction false} PushAllKeepsWindow<J>(h: JobHandler<J>, jobs: seq<J>, lo: nat)
    requires h.Window(lo)
    ensures PushAll(h, jobs).Window(lo)
    ensures JobsOf(PushAll(h, jobs).slots) == JobsOf(h.slots) + jobs
    decreases |jobs|
  {
    if |jobs| > 0 {
      var h1 := Push(h, jobs[0]);
      PushKeepsWindow(h, jobs[0], lo);
      PushAllKeepsWindow(h1, jobs[1..], lo);
      assert PushAll(h, jobs) == PushAll(h1, jobs[1..]);
      calc {
        JobsOf(PushAll(h, jobs).slots);
        JobsOf(h1.slots) + jobs[1..];
        (JobsOf(h.slots) + [jobs[0]]) + jobs[1..];
        { assert [jobs[0]] + jobs[1..] == jobs; }
        JobsOf(h.slots) + jobs;
      }
    }
  }

  // ---------------------------------------------------------------------------
  // Draining
  // ---------------------------------------------------------------------------

  datatype DrainResult<S, J> = DrainResult(state: S, ran: seq<J>, left: seq<J>)

  /**
   * Reference definition of a FIFO drain: run the head of the queue, append
   * what it enqueued to the tail, repeat until the queue is empty. `fuel`
   * bounds the number of jobs run, since jobs may keep enqueueing forever.
   */
  function Drain<S, J>(queue: seq<J>, s: S, exec: (S, J) -> (S, seq<J>), fuel: nat): DrainResult<S, J>
    decreases fuel
  {
    if |queue| == 0 || fuel == 0 then DrainResult(s, [], queue)
    else
      var next := exec(s, queue[0]);
      var rest := Drain(queue[1..] + next.1, next.0, exec, fuel - 1);
      DrainResult(rest.state, [queue[0]] + rest.ran, rest.left)
  }

  /**
   * The drain is first-in first-out: it runs the queued jobs first, in queue
   * order, before any job they enqueue, and stops only when the queue is
   * empty or the fuel is spent.
   */
  lemma {:induction false} DrainIsFifo<S, J>(queue: seq<J>, s: S, exec: (S, J) -> (S, seq<J>), fuel: nat)
    ensures var d := Drain(queue, s, exec, fuel);
            && |d.ran| <= fuel
            && (|d.ran| < fuel ==> |d.left| == 0)
            && (|queue| <= |d.ran| || |d.ran| == fuel)
            && (forall k :: 0 <= k < |queue| && k < |d.ran| ==> d.ran[k] == queue[k])
    decreases fuel
  {
    if |queue| > 0 && fuel > 0 {
      var next := exec(s, queue[0]);
      var grown := queue[1..] + next.1;
      DrainIsFifo(grown, next.0, exec, fuel - 1);
      var rest := Drain(grown, next.0, exec, fuel - 1);
      var d := Drain(queue, s, exec, fuel);
      assert d.ran == [queue[0]] + rest.ran;
      forall k | 0 <= k < |queue| && k < |d.ran|
        ensures d.ran[k] == queue[k]
      {
        if k > 0 {
          assert d.ran[k] == rest.ran[k - 1] == grown[k - 1];
        }
      }
    }
  }

  /**
   * A relation between states that every job respects and that composes
   * holds between the state before a drain and the state after it.
   */
  lemma {:induction false} DrainRespects<S, J>(queue: seq<J>, s: S, exec: (S, J) -> (S, seq<J>), fuel: nat,
                                               keep: (S, S) -> bool)
    requires forall a: S :: keep(a, a)
    requires forall a: S, j: J :: keep(a, exec(a, j).0)
    requires forall a: S, b: S, c: S :: keep(a, b) && keep(b, c) ==> keep(a, c)
    ensures keep(s, Drain(queue, s, exec, fuel).state)
    decreases fuel
  {
    if |queue| > 0 && fuel > 0 {
      var next := exec(s, queue[0]);
      DrainRespects(queue[1..] + next.1, next.0, exec, fuel - 1, keep);
      var after := Drain(queue[1..] + next.1, next.0, exec, fuel - 1).state;
      assert Drain(queue, s, exec, fuel).state == after;
      Compose(keep, s, next.0, after);
    }
  }

  lemma Compose<S>(keep: (S, S) -> bool, x: S, y: S, z: S)
    requires forall a: S, b: S, c: S :: keep(a, b) && keep(b, c) ==> keep(a, c)
    requires keep(x, y) && keep(y, z)
    ensures keep(x, z)
  {
  }

  function Prepend<S, J>(ran: seq<J>, d: DrainResult<S, J>): DrainResult<S, J> {
    DrainResult(d.state, ran + d.ran, d.left)
  }

  /**
   * `_process`: run the buffered jobs in index order, re-reading `length` so
   * that jobs enqueued by a running job are run in the same batch; clear each
   * slot and cancel its token after running it; finally reset `length`.
   * The result agrees with the FIFO reference `Drain`; when the drain
   * completes, the buffer is empty and the backend holds no token.
   */
  method Process<S, J>(h0: JobHandler<J>, s0: S, exec: (S, J) -> (S, seq<J>), fuel: nat)
    returns (h: JobHandler<J>, s: S, ran: seq<J>)
    requires h0.Valid()
    ensures var d := Drain(JobsOf(h0.slots), s0, exec, fuel);
            s == d.state && ran == d.ran && JobsOf(h.slots) == d.left
    ensures |JobsOf(h.slots)| == 0 ==>
              h.Valid() && h.length == 0 && AllVacant(h.slots) && h.scheduled == multiset{}
    ensures h.backend == h0.backend && h.run == h0.run && h.clear == h0.clear
  {
    ghost var target := Drain(JobsOf(h0.slots), s0, exec, fuel);
    h, s, ran := h0, s0, [];
    var i := 0;
    assert target == Prepend(ran, Drain(JobsOf(h.slots), s, exec, fuel - i));
    while i < h.length && i < fuel
      invariant i == |ran| <= fuel
      invariant h.Window(i)
      invariant h.backend == h0.backend && h.run == h0.run && h.clear == h0.clear
      invariant target == Prepend(ran, Drain(JobsOf(h.slots), s, exec, fuel - i))
      decreases fuel - i
    {
      var job;
      h, s, job := RunSlot(h, i, s, exec, fuel, ran, target);
      ran := ran + [job];
      i := i + 1;
    }
    h := Finish(h, i, s, exec, fuel, ran, target);
  }

  /**
   * One iteration of `_process`: execute the job at `index` (which pushes
   * the jobs it enqueues), then remove it. The drain so far plus what is
   * left still make up the whole `Drain`.
   */
  method RunSlot<S, J>(h: JobHandler<J>, index: nat, s: S, exec: (S, J) -> (S, seq<J>), fuel: nat,
                       ghost ran: seq<J>, ghost target: DrainResult<S, J>)
    returns (h': JobHandler<J>, s': S, job: J)
    requires h.Window(index) && index < h.length && index < fuel
    requires target == Prepend(ran, Drain(JobsOf(h.slots), s, exec, fuel - index))
    ensures h'.Window(index + 1)
    ensures h'.backend == h.backend && h'.run == h.run && h'.clear == h.clear
    ensures job == h.slots[index].job
    ensures target == Prepend(ran + [job], Drain(JobsOf(h'.slots), s', exec, fuel - index - 1))
  {
    job := h.slots[index].job;
    var next := exec(s, job);
    ProcessStep(h, index, s, exec, fuel);
    h' := Remove(PushAll(h, next.1), index);
    s' := next.0;
    PrependTwice(ran, job, Drain(JobsOf(h'.slots), s', exec, fuel - index - 1));
  }

  /**
   * After the loop of `_process`: when every buffered job ran, reset
   * `length`; when the fuel ran out first, the rest stays buffered.
   */
  method Finish<S, J>(h: JobHandler<J>, i: nat, s: S, exec: (S, J) -> (S, seq<J>), fuel: nat,
                      ghost ran: seq<J>, ghost target: DrainResult<S, J>)
    returns (h': JobHandler<J>)
    requires h.Window(i) && !(i < h.length && i < fuel) && i == |ran| <= fuel
    requires target == Prepend(ran, Drain(JobsOf(h.slots), s, exec, fuel - i))
    ensures s == target.state && ran == target.ran && JobsOf(h'.slots) == target.left
    ensures |JobsOf(h'.slots)| == 0 ==>
              h'.Valid() && h'.length == 0 && AllVacant(h'.slots) && h'.scheduled == multiset{}
    ensures h'.backend == h.backend && h'.run == h.run && h'.clear == h.clear
  {
    if i == h.length {
      WindowEmpty(h, i);
      assert ran + [] == ran;
      h' := h.(length := 0);
    } else {
      WindowHead(h, i);
      assert ran + [] == ran;
      h' := h;
    }
  }

  /** Running the job at the head of the window and clearing its slot is one step of `Drain`. */
  lemma ProcessStep<S, J>(h: JobHandler<J>, i: nat, s: S, exec: (S, J) -> (S, seq<J>), fuel: nat)
    requires h.Window(i) && i < h.length && i < fuel
    ensures var next := exec(s, h.slots[i].job);
            var h' := Remove(PushAll(h, next.1), i);
            && h'.Window(i + 1)
            && h'.backend == h.backend && h'.run == h.run && h'.clear == h.clear
            && Drain(JobsOf(h.slots), s, exec, fuel - i)
               == Prepend([h.slots[i].job], Drain(JobsOf(h'.slots), next.0, exec, fuel - i - 1))
  {
    var job := h.slots[i].job;
    WindowHead(h, i);
    var next := exec(s, job);
    var h1 := PushAll(h, next.1);
    PushAllKeepsWindow(h, next.1, i);
    RemoveAdvancesWindow(h1, i);
    DrainShift(JobsOf(h.slots), JobsOf(h1.slots), JobsOf(Remove(h1, i).slots), s, exec, fuel - i);
  }

  /** Running the head and appending what it enqueued is one step of `Drain`. */
  lemma DrainShift<S, J>(queue: seq<J>, grown: seq<J>, shifted: seq<J>, s: S,
                         exec: (S, J) -> (S, seq<J>), fuel: nat)
    requires |queue| > 0 && fuel > 0
    requires grown == queue + exec(s, queue[0]).1 && shifted == grown[1..]
    ensures Drain(queue, s, exec, fuel) == Prepend([queue[0]], Drain(shifted, exec(s, queue[0]).0, exec, fuel - 1))
  {
    assert shifted == queue[1..] + exec(s, queue[0]).1;
  }

  lemma PrependTwice<S, J>(ran: seq<J>, job: J, d: DrainResult<S, J>)
    ensures Prepend(ran, Prepend([job], d)) == Prepend(ran + [job], d)
  {
  }

  // ---------------------------------------------------------------------------
  // Helper lemmas about buffers
  // ---------------------------------------------------------------------------

  lemma {:induction false} SplitJobs<J>(a: seq<Slot<J>>, b: seq<Slot<J>>)
    ensures JobsOf(a + b) == JobsOf(a) + JobsOf(b)
    decreases |a|
  {
    if |a| == 0 {
      assert a + b == b;
    } else {
      assert (a + b)[0] == a[0] && (a + b)[1..] == a[1..] + b;
      SplitJobs(a[1..], b);
    }
  }

  lemma {:induction false} SplitTokens<J>(a: seq<Slot<J>>, b: seq<Slot<J>>)
    ensures TokensOf(a + b) == TokensOf(a) + TokensOf(b)
    decreases |a|
  {
    if |a| == 0 {
      assert a + b == b;
    } else {
      assert (a + b)[0] == a[0] && (a + b)[1..] == a[1..] + b;
      SplitTokens(a[1..], b);
    }
  }

  lemma SplitThree<J>(a: seq<Slot<J>>, b: seq<Slot<J>>, c: seq<Slot<J>>)
    ensures JobsOf(a + b + c) == JobsOf(a) + JobsOf(b) + JobsOf(c)
    ensures TokensOf(a + b + c) == TokensOf(a) + TokensOf(b) + TokensOf(c)
  {
    SplitJobs(a + b, c);
    SplitJobs(a, b);
    SplitTokens(a + b, c);
    SplitTokens(a, b);
  }

  lemma {:induction false} VacantSlots<J>(slots: seq<Slot<J>>)
    requires AllVacant(slots)
    ensures JobsOf(slots) == [] && TokensOf(slots) == multiset{}
    decreases |slots|
  {
    if |slots| > 0 {
      VacantSlots(slots[1..]);
    }
  }

  lemma TokensBelow<J>(slots: seq<Slot<J>>, t: Token)
    requires forall i :: 0 <= i < |slots| && slots[i].Occupied? ==> slots[i].token < t
    ensures t !in TokensOf(slots)
    decreases |slots|
  {
  }

  /** In a window starting at `i`, the job at `i` heads the pending jobs. */
  lemma WindowHead<J>(h: JobHandler<J>, i: nat)
    requires h.Window(i) && i < h.length
    ensures |JobsOf(h.slots)| > 0 && JobsOf(h.slots)[0] == h.slots[i].job
  {
    VacateHead(h.slots, i);
  }

  /** A window that has reached `length` holds nothing. */
  lemma WindowEmpty<J>(h: JobHandler<J>, i: nat)
    requires h.Window(i) && i == h.length
    ensures AllVacant(h.slots) && JobsOf(h.slots) == [] && h.scheduled == multiset{}
    ensures h.(length := 0).Valid()
  {
    VacantSlots(h.slots);
  }
}

=== FILE: js_values.dfy ===
/**
 * The JavaScript values the promise library handles, abstracted to what its
 * code distinguishes: `typeof`, callability, truthiness, whether reading
 * `then` throws or yields a callable, and `length` with positional access.
 *
 * Functions are values too. The library's own closures (the resolving
 * functions, the `Promise.all` element functions, `identity`/`thrower`) are
 * listed by kind so that calling them can be modelled exactly; user code is
 * `User(id)`, whose behaviour is an abstract `Oracle` parameter.
 */
module Js {
  import opened Common

  type PromiseId = nat  // index into the promise table
  type FlagId = nat     // an `{ _value: bool }` cell: `alreadyResolved` / `alreadyCalled`
  type CounterId = nat  // the `remainingElements` cell of one `Promise.all`
  type ArrayId = nat    // the `values` array of one `Promise.all`

  datatype Primitive = Bool(b: bool) | Number(n: int) | Str(s: string)

  datatype ErrorKind = TypeError | ReferenceError | GenericError

  datatype Value =
    | Undefined
    | Null
    | Prim(prim: Primitive)
    | Func(fn: Fn)
    | PlainObject(obj: nat)          // an object whose `then` is absent or not callable
    | ArrayLike(obj: nat, items: seq<Value>)  // such an object with a numeric `length` and elements `0 .. length-1`
    | ThenableObject(obj: nat)       // a foreign object whose `then` is callable
    | PoisonedThen(obj: nat)         // an object whose `then` getter throws
    | PromiseRef(promise: PromiseId) // an instance of the library's `Promise`
    | ArrayValue(items: seq<Value>)  // an array (holes read as `undefined`)
    | ErrorObject(kind: ErrorKind, message: string)

  /** A function value. */
  datatype Fn =
    | Identity
    | Thrower
    | ResolveFn(promise: PromiseId, alreadyResolved: FlagId)
    | RejectFn(promise: PromiseId, alreadyResolved: FlagId)
    | AllResolveElement(alreadyCalled: FlagId, index: nat, values: ArrayId,
                        capability: Capability, remaining: CounterId)
    | User(id: nat)

  /** `PromiseCapability`: a promise with the functions that resolve and reject it. */
  datatype Capability = Capability(promise: PromiseId, resolve: Fn, reject: Fn)

  /** How a call ends: it returns a value or throws one. */
  datatype Completion = Normal(value: Value) | Throw(exception: Value)

  /** A call user code makes on the resolve (`CallResolve`) or reject (`CallReject`) function it was given. */
  datatype Invocation = CallResolve(arg: Value) | CallReject(arg: Value)

  /** What a user executor or a foreign `then` does: calls in order, then how it ends. */
  datatype Behaviour = Behaviour(calls: seq<Invocation>, completion: Completion)

  /**
   * Everything user code decides: the completion of user function `id`
   * called as a reaction handler on an argument; the behaviour of user
   * function `id` called as an executor; the behaviour of the foreign `then`
   * of object `obj`; and the declared parameter count (`length`) of `id`.
   */
  datatype Oracle = Oracle(
    handler: (nat, Value) -> Completion,
    executor: nat -> Behaviour,
    foreignThen: nat -> Behaviour,
    arity: nat -> nat)

  function TypeErrorValue(message: string): Value {
    ErrorObject(TypeError, message)
  }

  /** The `typeof` operator. */
  function TypeOf(v: Value): string {
    match v
    case Undefined => "undefined"
    case Prim(Bool(_)) => "boolean"
    case Prim(Number(_)) => "number"
    case Prim(Str(_)) => "string"
    case Func(_) => "function"
    case _ => "object"  // including `null`
  }

  /** `isCallable` (promise.js:522-524). */
  predicate IsCallable(v: Value)
    ensures IsCallable(v) <==> v.Func?
  {
    v != Null && TypeOf(v) == "function"
  }

  /**
   * `isPromise` as written (promise.js:534-536): its last conjunct compares
   * `_promiseState` with the STRING "undefined", which no object's slot ever
   * equals, so the test holds for every non-null object.
   */
  predicate IsPromise(x: Value)
    ensures IsPromise(x) <==> !(x.Undefined? || x.Null? || x.Prim? || x.Func?)
  {
    x != Null && TypeOf(x) == "object"
  }

  /** ToBoolean: the values `!` treats as false. */
  predicate Truthy(v: Value) {
    match v
    case Undefined => false
    case Null => false
    case Prim(Bool(b)) => b
    case Prim(Number(n)) => n != 0
    case Prim(Str(s)) => |s| > 0
    case _ => true
  }

  /** The `length` property, when it is not `undefined`. */
  function LengthOf(v: Value, o: Oracle): Option<nat> {
    match v
    case Prim(Str(s)) => Some(|s|)
    case ArrayValue(items) => Some(|items|)
    case ArrayLike(_, items) => Some(|items|)
    case Func(User(id)) => Some(o.arity(id))
    case Func(_) => Some(1)  // every closure of the library declares one parameter
    case _ => None
  }

  /** Positional access `v[i]`. */
  function ElementAt(v: Value, i: nat): Value {
    match v
    case Prim(Str(s)) => if i < |s| then Prim(Str([s[i]])) else Undefined
    case ArrayValue(items) => if i < |items| then items[i] else Undefined
    case ArrayLike(_, items) => if i < |items| then items[i] else Undefined
    case _ => Undefined
  }
}

=== FILE: promise_core.dfy ===
/**
 * The settlement machine of the promise library (ECMA-262 6th edition,
 * section 25.4.1, 25.4.2 and 25.4.5.3), modelled as pure transitions over a
 * heap of promise records and shared cells.
 *
 * Every operation returns a `Step`: the new heap, the jobs it appended to the
 * job queue (in order) and how it completed. Places where the library departs
 * from ECMA-262 are modelled as the library behaves and marked "as written".
 */
module Promises {
  import opened Common
  import opened Js

  /** `PromiseReaction`: the derived capability and the handler to run. */
  datatype Reaction = Reaction(capability: Capability, handler: Fn)

  /**
   * `_promiseState` with the reaction lists. The lists exist only while the
   * promise is pending; settling sets both to `undefined`.
   */
  datatype PromiseState =
    | Pending(fulfillReactions: seq<Reaction>, rejectReactions: seq<Reaction>)
    | Fulfilled
    | Rejected

  /** A promise: its state and `_promiseResult`. */
  datatype PromiseRecord = PromiseRecord(state: PromiseState, result: Value)

  /** The `then` found on a thenable: the library's own or a foreign one. */
  datatype ThenMethod = BuiltinThen | ForeignThen(obj: nat)

  /** The two job kinds the library enqueues ("PromiseJobs"). */
  datatype Job =
    | ReactionJob(reaction: Reaction, argument: Value)
    | ResolveThenableJob(promise: PromiseId, thenable: Value, thenMethod: ThenMethod)

  /**
   * The mutable state the library's closures share: the promise table, the
   * `{ _value }` flag cells, the `Promise.all` counters and `values` arrays.
   * Ids are table indices; an id outside a table stands for an object
   * without the corresponding fields.
   */
  datatype Heap = Heap(
    promises: seq<PromiseRecord>,
    flags: seq<bool>,
    counters: seq<int>,
    arrays: seq<seq<Value>>)
  {
    predicate IsPending(p: PromiseId) {
      p < |promises| && promises[p].state.Pending?
    }

    function Flag(f: FlagId): bool {
      f < |flags| && flags[f]
    }

    function SetFlag(f: FlagId): Heap {
      if f < |flags| then this.(flags := flags[f := true]) else this
    }

    function Counter(c: CounterId): int {
      if c < |counters| then counters[c] else 0
    }

    function AddToCounter(c: CounterId, delta: int): Heap {
      if c < |counters| then this.(counters := counters[c := counters[c] + delta]) else this
    }

    function Array(a: ArrayId): seq<Value> {
      if a < |arrays| then arrays[a] else []
    }

    /** `values[i] = x`; assigning past the end grows a JavaScript array. */
    function StoreElement(a: ArrayId, i: nat, x: Value): Heap {
      if a < |arrays| then
        var items := arrays[a];
        var items' := if i < |items| then items[i := x]
                      else items + seq(i - |items|, _ => Undefined) + [x];
        this.(arrays := arrays[a := items'])
      else this
    }
  }

  const EmptyHeap: Heap := Heap([], [], [], [])

  /** The result of one synchronous operation. */
  datatype Step = Step(heap: Heap, jobs: seq<Job>, completion: Completion)

  /** Run `second` after `first`: the jobs of both, in order. */
  function Chain(first: Step, second: Step): Step {
    Step(second.heap, first.jobs + second.jobs, second.completion)
  }

  /** Every promise record of `h` other than `p`'s is the same in `h'`. */
  predicate OthersUnchanged(h: Heap, h': Heap, p: PromiseId) {
    && |h'.promises| == |h.promises|
    && (forall q :: 0 <= q < |h.promises| && q != p ==> h'.promises[q] == h.promises[q])
  }

  /** `h` and `h'` have tables of the same sizes: nothing was allocated. */
  predicate SameShape(h: Heap, h': Heap) {
    && |h'.promises| == |h.promises| && |h'.flags| == |h.flags|
    && |h'.counters| == |h.counters| && |h'.arrays| == |h.arrays|
  }

  /** `h'` differs from `h` at most in the record of promise `p`. */
  predicate SameExcept(h: Heap, h': Heap, p: PromiseId) {
    && OthersUnchanged(h, h', p)
    && h'.flags == h.flags && h'.counters == h.counters && h'.arrays == h.arrays
  }

  /** Every cell set in `h` is still set in `h'`: no operation ever clears a cell. */
  predicate FlagsGrow(h: Heap, h': Heap) {
    && |h.flags| <= |h'.flags|
    && (forall i :: 0 <= i < |h.flags| && h.flags[i] ==> h'.flags[i])
  }

  // ---------------------------------------------------------------------------
  // Allocation
  // ---------------------------------------------------------------------------

  /** The fields the `Promise` constructor initialises (promise.js:724-727). */
  function NewPromise(h: Heap): (r: (Heap, PromiseId))
    ensures r.1 == |h.promises| && r.0.IsPending(r.1)
    ensures r.0.promises == h.promises + [PromiseRecord(Pending([], []), Undefined)]
    ensures r.0.flags == h.flags && r.0.counters == h.counters && r.0.arrays == h.arrays
  {
    (h.(promises := h.promises + [PromiseRecord(Pending([], []), Undefined)]), |h.promises|)
  }

  /** A fresh `{ _value: initial }` cell. */
  function NewFlag(h: Heap): (r: (Heap, FlagId))
    ensures r.1 == |h.flags| && !r.0.Flag(r.1)
    ensures r.0.flags == h.flags + [false]
    ensures r.0.promises == h.promises && r.0.counters == h.counters && r.0.arrays == h.arrays
  {
    (h.(flags := h.flags + [false]), |h.flags|)
  }

  /** A capability as the library builds it: the resolving functions of its promise, sharing cell `g`. */
  predicate BuiltinCapability(cap: Capability, g: FlagId) {
    cap.resolve == ResolveFn(cap.promise, g) && cap.reject == RejectFn(cap.promise, g)
  }

  /** `cap` is built by the library; its shared cell is `cap.resolve.alreadyResolved`. */
  predicate IsBuiltin(cap: Capability) {
    cap.resolve.ResolveFn? && BuiltinCapability(cap, cap.resolve.alreadyResolved)
  }

  datatype ResolvingFunctions = ResolvingFunctions(heap: Heap, resolve: Fn, reject: Fn)

  /**
   * `createResolvingFunctions`: a resolve and a reject function for `p` that
   * share one fresh `alreadyResolved` cell, initially false.
   */
  function CreateResolvingFunctions(h: Heap, p: PromiseId): (r: ResolvingFunctions)
    ensures r.resolve == ResolveFn(p, |h.flags|) && r.reject == RejectFn(p, |h.flags|)
    ensures r.heap.flags == h.flags + [false] && !r.heap.Flag(|h.flags|)
    ensures r.heap.promises == h.promises && r.heap.counters == h.counters && r.heap.arrays == h.arrays
  {
    var (h1, f) := NewFlag(h);
    ResolvingFunctions(h1, ResolveFn(p, f), RejectFn(p, f))
  }

  // ---------------------------------------------------------------------------
  // Settlement
  // ---------------------------------------------------------------------------

  /**
   * `triggerPromiseReactions`: one `promiseReactionJob` per reaction, in
   * list order, each carrying `argument`.
   */
  function TriggerPromiseReactions(reactions: seq<Reaction>, argument: Value): (jobs: seq<Job>)
    ensures |jobs| == |reactions|
    ensures forall i :: 0 <= i < |jobs| ==> jobs[i] == ReactionJob(reactions[i], argument)
  {
    if |reactions| == 0 then []
    else [ReactionJob(reactions[0], argument)] + TriggerPromiseReactions(reactions[1..], argument)
  }

  /**
   * `fulfillPromise`: store the value, mark the promise fulfilled, drop both
   * reaction lists and enqueue the fulfil reactions. On a promise that is no
   * longer pending the lists are already `undefined`, so after the fields are
   * written, reading `reactions.length` throws a TypeError.
   */
  function FulfillPromise(h: Heap, p: PromiseId, value: Value): (r: Step)
    ensures SameExcept(h, r.heap, p)
    ensures p < |h.promises| ==> r.heap.promises[p] == PromiseRecord(Fulfilled, value)
    ensures h.IsPending(p) <==> r.completion == Normal(Undefined)
    ensures h.IsPending(p) ==> r.jobs == TriggerPromiseReactions(h.promises[p].state.fulfillReactions, value)
    ensures !h.IsPending(p) ==> r.jobs == [] && r.completion.Throw?
  {
    if p >= |h.promises| then Step(h, [], Throw(TypeErrorValue("")))
    else
      var h' := h.(promises := h.promises[p := PromiseRecord(Fulfilled, value)]);
      match h.promises[p].state
      case Pending(fulfillReactions, _) => Step(h', TriggerPromiseReactions(fulfillReactions, value), Normal(Undefined))
      case _ => Step(h', [], Throw(TypeErrorValue("")))
  }

  /** `rejectPromise`: the mirror image of `FulfillPromise` for the reject list. */
  function RejectPromise(h: Heap, p: PromiseId, reason: Value): (r: Step)
    ensures SameExcept(h, r.heap, p)
    ensures p < |h.promises| ==> r.heap.promises[p] == PromiseRecord(Rejected, reason)
    ensures h.IsPending(p) <==> r.completion == Normal(Undefined)
    ensures h.IsPending(p) ==> r.jobs == TriggerPromiseReactions(h.promises[p].state.rejectReactions, reason)
    ensures !h.IsPending(p) ==> r.jobs == [] && r.completion.Throw?
  {
    if p >= |h.promises| then Step(h, [], Throw(TypeErrorValue("")))
    else
      var h' := h.(promises := h.promises[p := PromiseRecord(Rejected, reason)]);
      match h.promises[p].state
      case Pending(_, rejectReactions) => Step(h', TriggerPromiseReactions(rejectReactions, reason), Normal(Undefined))
      case _ => Step(h', [], Throw(TypeErrorValue("")))
  }

  // ---------------------------------------------------------------------------
  // Resolving functions
  // ---------------------------------------------------------------------------

  /** The outcome of reading `resolution.then` on a value whose `typeof` is "object". */
  datatype ThenLookup = LookupThrows | NotCallable | Callable(thenMethod: ThenMethod)

  function GetThen(resolution: Value): (r: ThenLookup)
    ensures r.LookupThrows? <==> resolution.Null? || resolution.PoisonedThen?
    ensures r.Callable? <==> resolution.PromiseRef? || resolution.ThenableObject?
    ensures r.Callable? && r.thenMethod == BuiltinThen <==> resolution.PromiseRef?
    ensures resolution.ThenableObject? ==> r == Callable(ForeignThen(resolution.obj))
  {
    match resolution
    case Null => LookupThrows  // reading a property of null
    case PoisonedThen(_) => LookupThrows
    case PromiseRef(_) => Callable(BuiltinThen)
    case ThenableObject(obj) => Callable(ForeignThen(obj))
    case _ => NotCallable
  }

  /**
   * The resolve function of `createResolveFunction`, closed over promise `p`
   * and cell `f`. As written, a value whose `typeof` is not "object" is
   * fulfilled directly (so functions are never adopted), `null` goes to the
   * `then` lookup and throws there, and a throwing lookup rejects with the
   * still-unset local `then`, i.e. `undefined`.
   */
  function ResolveFunction(h: Heap, p: PromiseId, f: FlagId, resolution: Value): (r: Step)
    ensures h.Flag(f) ==> r == Step(h, [], Normal(Undefined))
    ensures !h.Flag(f) && f < |h.flags| ==> r.heap.Flag(f)
    ensures !h.Flag(f) && h.IsPending(p) ==> r.completion == Normal(Undefined)
    ensures r.heap.flags == h.SetFlag(f).flags
    ensures r.heap.counters == h.counters && r.heap.arrays == h.arrays
    ensures OthersUnchanged(h, r.heap, p)
  {
    if h.Flag(f) then Step(h, [], Normal(Undefined))
    else
      var h1 := h.SetFlag(f);
      if resolution == PromiseRef(p) then RejectPromise(h1, p, TypeErrorValue(""))
      else if TypeOf(resolution) != "object" then FulfillPromise(h1, p, resolution)
      else match GetThen(resolution)
        case LookupThrows => RejectPromise(h1, p, Undefined)  // as written: rejects with `then`, not the exception
        case NotCallable => FulfillPromise(h1, p, resolution)
        case Callable(m) => Step(h1, [ResolveThenableJob(p, resolution, m)], Normal(Undefined))
  }

  /** The reject function of `createRejectFunction`, closed over promise `p` and cell `f`. */
  function RejectFunction(h: Heap, p: PromiseId, f: FlagId, reason: Value): (r: Step)
    ensures h.Flag(f) ==> r == Step(h, [], Normal(Undefined))
    ensures !h.Flag(f) && f < |h.flags| ==> r.heap.Flag(f)
    ensures r.heap.flags == h.SetFlag(f).flags
    ensures r.heap.counters == h.counters && r.heap.arrays == h.arrays
    ensures OthersUnchanged(h, r.heap, p)
    ensures !h.Flag(f) && h.IsPending(p) ==>
              && r.heap.promises[p] == PromiseRecord(Rejected, reason) && r.completion == Normal(Undefined)
              && r.jobs == TriggerPromiseReactions(h.promises[p].state.rejectReactions, reason)
  {
    if h.Flag(f) then Step(h, [], Normal(Undefined))
    else RejectPromise(h.SetFlag(f), p, reason)
  }

  // ---------------------------------------------------------------------------
  // Calling a function value
  // ---------------------------------------------------------------------------

  /**
   * Call function value `fn` with one argument. The library's closures are
   * modelled exactly; a user function's completion comes from the oracle and
   * is taken to have no effect on the library's state.
   */
  function Call(h: Heap, fn: Fn, arg: Value, o: Oracle): (r: Step)
    ensures SameShape(h, r.heap) && FlagsGrow(h, r.heap)
    decreases fn, 1
  {
    match fn
    case Identity => Step(h, [], Normal(arg))
    case Thrower => Step(h, [], Throw(arg))
    case ResolveFn(p, f) => ResolveFunction(h, p, f, arg)
    case RejectFn(p, f) => RejectFunction(h, p, f, arg)
    case AllResolveElement(_, _, _, _, _) => ResolveElement(h, fn, arg, o)
    case User(id) => Step(h, [], o.handler(id, arg))
  }

  /**
   * The `Promise.all` resolve element function of `createAllResolveFunction`:
   * the first call stores `x` at its index and decrements the shared count;
   * the call that brings the count to 0 resolves the capability with the
   * array. Every later call returns `undefined` and changes nothing.
   */
  function ResolveElement(h: Heap, fn: Fn, x: Value, o: Oracle): (r: Step)
    requires fn.AllResolveElement?
    ensures h.Flag(fn.alreadyCalled) ==> r == Step(h, [], Normal(Undefined))
    ensures SameShape(h, r.heap) && FlagsGrow(h, r.heap)
    decreases fn, 0
  {
    if h.Flag(fn.alreadyCalled) then Step(h, [], Normal(Undefined))
    else
      var h1 := h.SetFlag(fn.alreadyCalled).StoreElement(fn.values, fn.index, x).AddToCounter(fn.remaining, -1);
      if h1.Counter(fn.remaining) == 0 then
        Call(h1, fn.capability.resolve, ArrayValue(h1.Array(fn.values)), o)
      else
        Step(h1, [], Normal(Undefined))
  }

  /**
   * User code calling the resolve and reject functions it was handed, in
   * order. A call that throws propagates out of the user code and ends it.
   */
  function Invoke(h: Heap, calls: seq<Invocation>, resolve: Fn, reject: Fn, o: Oracle): (r: Step)
    ensures SameShape(h, r.heap) && FlagsGrow(h, r.heap)
    decreases |calls|
  {
    if |calls| == 0 then Step(h, [], Normal(Undefined))
    else
      var first := match calls[0]
        case CallResolve(v) => Call(h, resolve, v, o)
        case CallReject(v) => Call(h, reject, v, o);
      if first.completion.Throw? then first
      else Chain(first, Invoke(first.heap, calls[1..], resolve, reject, o))
  }

  /** Run user code that was handed a resolve/reject pair. */
  function RunBehaviour(h: Heap, b: Behaviour, resolve: Fn, reject: Fn, o: Oracle): (r: Step)
    ensures SameShape(h, r.heap) && FlagsGrow(h, r.heap)
  {
    var invoked := Invoke(h, b.calls, resolve, reject, o);
    if invoked.completion.Throw? then invoked
    else Step(invoked.heap, invoked.jobs, b.completion)
  }

  // ---------------------------------------------------------------------------
  // Construction and capabilities
  // ---------------------------------------------------------------------------

  /**
   * `new Promise(executor)`: a pending promise whose executor runs at once
   * with its resolving functions. As written, when the executor throws the
   * promise is rejected with the still-unset `completion`, i.e. `undefined`,
   * not with the exception.
   */
  function Construct(h: Heap, executor: Value, o: Oracle): (r: Step)
    ensures !IsCallable(executor) <==> r.completion == Throw(TypeErrorValue("Promise resolver must be function"))
    ensures !IsCallable(executor) ==> r.heap == h && r.jobs == []
    ensures IsCallable(executor) ==> |r.heap.promises| == |h.promises| + 1 && |r.heap.flags| == |h.flags| + 1
    ensures IsCallable(executor) ==> r.completion == Normal(PromiseRef(|h.promises|))
  {
    if !IsCallable(executor) then
      Step(h, [], Throw(TypeErrorValue("Promise resolver must be function")))
    else
      var (h1, p) := NewPromise(h);
      var rf := CreateResolvingFunctions(h1, p);
      var settled := RunExecutor(rf, executor.fn, o);
      ExecutorNeverThrows(rf, p, |h1.flags|, executor.fn, o);
      if settled.completion.Throw? then settled
      else Step(settled.heap, settled.jobs, Normal(PromiseRef(p)))
  }

  /**
   * A call that throws leaves a pending promise as it was: the resolving
   * functions throw only when their own promise is already settled, and
   * user code does not touch the library's state.
   */
  lemma CallThrowLeavesPending(h: Heap, fn: Fn, arg: Value, p: PromiseId, o: Oracle)
    requires h.IsPending(p)
    ensures Call(h, fn, arg, o).completion.Throw? ==> Call(h, fn, arg, o).heap.promises[p] == h.promises[p]
    decreases fn
  {
    if fn.AllResolveElement? && !h.Flag(fn.alreadyCalled) {
      var h1 := h.SetFlag(fn.alreadyCalled).StoreElement(fn.values, fn.index, arg).AddToCounter(fn.remaining, -1);
      CallThrowLeavesPending(h1, fn.capability.resolve, ArrayValue(h1.Array(fn.values)), p, o);
    }
  }

  /**
   * User code holding the resolving functions of `p` can call them any
   * number of times without an exception: while `p` is pending or its cell
   * is set, neither throws, and afterwards that still holds.
   */
  lemma {:induction false} OwnPairNeverThrows(h: Heap, calls: seq<Invocation>, p: PromiseId, f: FlagId, o: Oracle)
    requires f < |h.flags| && (h.Flag(f) || h.IsPending(p))
    ensures var r := Invoke(h, calls, ResolveFn(p, f), RejectFn(p, f), o);
            r.completion == Normal(Undefined) && (r.heap.Flag(f) || r.heap.IsPending(p))
    decreases |calls|
  {
    if |calls| > 0 {
      var first := match calls[0]
        case CallResolve(v) => Call(h, ResolveFn(p, f), v, o)
        case CallReject(v) => Call(h, RejectFn(p, f), v, o);
      OwnPairNeverThrows(first.heap, calls[1..], p, f, o);
    }
  }

  /**
   * Running an executor with the resolving functions of a pending promise
   * never throws: the executor's own exception is absorbed by the reject
   * call, and that call cannot throw.
   */
  lemma ExecutorNeverThrows(rf: ResolvingFunctions, p: PromiseId, f: FlagId, executor: Fn, o: Oracle)
    requires rf.resolve == ResolveFn(p, f) && rf.reject == RejectFn(p, f)
    requires rf.heap.IsPending(p) && f < |rf.heap.flags|
    ensures RunExecutor(rf, executor, o).completion.Normal?
  {
    match executor
    case User(id) =>
      OwnPairNeverThrows(rf.heap, o.executor(id).calls, p, f, o);
    case _ =>
      CallThrowLeavesPending(rf.heap, executor, Func(rf.resolve), p, o);
  }

  /**
   * Call the executor with the resolving functions inside the constructor's
   * `try`: when it throws, the reject function is called with `undefined`
   * (as written), and only an exception from that call escapes.
   */
  function RunExecutor(rf: ResolvingFunctions, executor: Fn, o: Oracle): (r: Step)
    ensures SameShape(rf.heap, r.heap) && FlagsGrow(rf.heap, r.heap)
    ensures executor.User? && o.executor(executor.id).calls == [] && o.executor(executor.id).completion.Normal? ==>
              r == Step(rf.heap, [], o.executor(executor.id).completion)
    ensures executor.User? && o.executor(executor.id).calls == [] && o.executor(executor.id).completion.Throw? &&
            rf.reject.RejectFn? && rf.heap.IsPending(rf.reject.promise) && !rf.heap.Flag(rf.reject.alreadyResolved) ==>
              && r.heap.promises[rf.reject.promise] == PromiseRecord(Rejected, Undefined)
              && r.completion == Normal(Undefined)
              && r.jobs == TriggerPromiseReactions(rf.heap.promises[rf.reject.promise].state.rejectReactions, Undefined)
  {
    var ran := match executor
      case User(id) => RunBehaviour(rf.heap, o.executor(id), rf.resolve, rf.reject, o)
      case fn => Call(rf.heap, fn, Func(rf.resolve), o);  // the library's closures read only their first argument
    if ran.completion.Throw? then Chain(ran, Call(ran.heap, rf.reject, Undefined, o)) else ran
  }

  /** The constructor a `then` call finds on its receiver. */
  datatype Ctor = PromiseCtor | OtherCtor

  function ConstructorOf(v: Value): Ctor {
    if v.PromiseRef? then PromiseCtor else OtherCtor
  }

  /** A `PromiseCapability` whose resolve and reject slots may still be `undefined`. */
  datatype PartialCapability = PartialCapability(resolve: Option<Fn>, reject: Option<Fn>)

  /**
   * The executor `getCapabilitiesExecutor` builds: it fills the capability's
   * two slots, and throws a TypeError if either was already filled.
   */
  function CapabilitiesExecutor(cap: PartialCapability, resolve: Fn, reject: Fn): (r: Result<PartialCapability, Value>)
    ensures r.Ok? <==> cap.resolve.None? && cap.reject.None?
    ensures r.Ok? ==> r.value.resolve == Some(resolve) && r.value.reject == Some(reject)
    ensures r.Err? ==> r.error == TypeErrorValue("")
  {
    if cap.resolve.Some? then Err(TypeErrorValue(""))
    else if cap.reject.Some? then Err(TypeErrorValue(""))
    else Ok(PartialCapability(Some(resolve), Some(reject)))
  }

  /**
   * `newPromiseCapability(c)`: construct a promise through the capabilities
   * executor and check that both slots were filled with callables. Only the
   * library's `Promise` calls the executor; another constructor (the
   * `constructor` of a non-promise object) leaves the slots `undefined`, and
   * the callable check throws.
   */
  function NewPromiseCapability(h: Heap, c: Ctor): (r: Result<(Heap, Capability), Value>)
    ensures r.Ok? <==> c == PromiseCtor
    ensures r.Err? ==> r.error == TypeErrorValue("")
    ensures r.Ok? ==>
              var (h', cap) := r.value;
              && cap == Capability(|h.promises|, ResolveFn(|h.promises|, |h.flags|), RejectFn(|h.promises|, |h.flags|))
              && h'.promises == h.promises + [PromiseRecord(Pending([], []), Undefined)]
              && h'.flags == h.flags + [false]
              && h'.counters == h.counters && h'.arrays == h.arrays
  {
    match c
    case OtherCtor => Err(TypeErrorValue(""))
    case PromiseCtor =>
      var (h1, p) := NewPromise(h);
      var rf := CreateResolvingFunctions(h1, p);
      match CapabilitiesExecutor(PartialCapability(None, None), rf.resolve, rf.reject)
      case Err(_) => Err(TypeErrorValue(""))
      case Ok(filled) =>
        if filled.resolve.None? || filled.reject.None? then Err(TypeErrorValue(""))
        else Ok((rf.heap, Capability(p, filled.resolve.value, filled.reject.value)))
  }

  // ---------------------------------------------------------------------------
  // then / catch
  // ---------------------------------------------------------------------------

  /** The handler stored for `onFulfilled`: non-callables become `identity`. */
  function FulfillHandler(onFulfilled: Value): Fn {
    if IsCallable(onFulfilled) then onFulfilled.fn else Identity
  }

  /** The handler stored for `onRejected`: non-callables become `thrower`. */
  function RejectHandler(onRejected: Value): Fn {
    if IsCallable(onRejected) then onRejected.fn else Thrower
  }

  /**
   * `performPromiseThen`: on a pending promise append one reaction to each
   * list; on a settled one enqueue a single job for the matching reaction
   * with the stored result. Always returns the capability's promise.
   */
  function PerformPromiseThen(h: Heap, p: PromiseId, onFulfilled: Value, onRejected: Value, cap: Capability): (r: Step)
    ensures r.completion == Normal(PromiseRef(cap.promise))
    ensures SameExcept(h, r.heap, p)
    ensures h.IsPending(p) ==>
              && r.jobs == []
              && r.heap.promises[p].result == h.promises[p].result
              && r.heap.promises[p].state == Pending(
                   h.promises[p].state.fulfillReactions + [Reaction(cap, FulfillHandler(onFulfilled))],
                   h.promises[p].state.rejectReactions + [Reaction(cap, RejectHandler(onRejected))])
    ensures p < |h.promises| && h.promises[p].state.Fulfilled? ==>
              r.heap == h && r.jobs == [ReactionJob(Reaction(cap, FulfillHandler(onFulfilled)), h.promises[p].result)]
    ensures p < |h.promises| && h.promises[p].state.Rejected? ==>
              r.heap == h && r.jobs == [ReactionJob(Reaction(cap, RejectHandler(onRejected)), h.promises[p].result)]
  {
    var fulfillReaction := Reaction(cap, FulfillHandler(onFulfilled));
    var rejectReaction := Reaction(cap, RejectHandler(onRejected));
    var result := Normal(PromiseRef(cap.promise));
    if p >= |h.promises| then Step(h, [], result)  // no `_promiseState`: no branch applies
    else
      var rec := h.promises[p];
      match rec.state
      case Pending(fulfillReactions, rejectReactions) =>
        var rec' := PromiseRecord(Pending(fulfillReactions + [fulfillReaction], rejectReactions + [rejectReaction]), rec.result);
        Step(h.(promises := h.promises[p := rec']), [], result)
      case Fulfilled => Step(h, [ReactionJob(fulfillReaction, rec.result)], result)
      case Rejected => Step(h, [ReactionJob(rejectReaction, rec.result)], result)
  }

  /**
   * `Promise.prototype.then`: refuse a receiver that fails `isPromise`, build
   * a capability from the receiver's constructor, and attach the reactions.
   */
  function PromiseThen(h: Heap, thisValue: Value, onFulfilled: Value, onRejected: Value): (r: Step)
    ensures !IsPromise(thisValue) ==>
              r == Step(h, [], Throw(TypeErrorValue("Invalid operation on a promise function")))
    ensures IsPromise(thisValue) && !thisValue.PromiseRef? ==> r == Step(h, [], Throw(TypeErrorValue("")))
    ensures thisValue.PromiseRef? ==> r.completion == Normal(PromiseRef(|h.promises|))
    ensures thisValue.PromiseRef? ==> r.heap.flags == h.flags + [false]
    ensures r.heap.counters == h.counters && r.heap.arrays == h.arrays
    ensures thisValue.PromiseRef? && thisValue.promise < |h.promises| ==> r.heap.IsPending(|h.promises|)
  {
    if !IsPromise(thisValue) then
      Step(h, [], Throw(TypeErrorValue("Invalid operation on a promise function")))
    else
      match NewPromiseCapability(h, ConstructorOf(thisValue))
      case Err(e) => Step(h, [], Throw(e))
      case Ok((h1, cap)) => PerformPromiseThen(h1, thisValue.promise, onFulfilled, onRejected, cap)
  }

  /** `Promise.prototype.catch`: `then` with `null` as the fulfil handler. */
  function PromiseCatch(h: Heap, thisValue: Value, onRejected: Value): (r: Step)
    ensures r == PromiseThen(h, thisValue, Undefined, onRejected)
  {
    PromiseThen(h, thisValue, Null, onRejected)
  }

  // ---------------------------------------------------------------------------
  // Jobs
  // ---------------------------------------------------------------------------

  /**
   * `promiseReactionJob`: run the handler (`identity` without a call), then
   * resolve the derived capability with its result; if the handler or that
   * resolve throws, reject the derived capability with the exception.
   */
  function PromiseReactionJob(h: Heap, reaction: Reaction, argument: Value, o: Oracle): (r: Step)
    ensures SameShape(h, r.heap) && FlagsGrow(h, r.heap)
    ensures var cap := reaction.capability;
            IsBuiltin(cap) && cap.resolve.alreadyResolved < |h.flags| ==> r.heap.Flag(cap.resolve.alreadyResolved)
  {
    var cap := reaction.capability;
    var handled := if reaction.handler.Identity? then Step(h, [], Normal(argument))
                   else Call(h, reaction.handler, argument, o);
    if handled.completion.Throw? then
      Chain(handled, Call(handled.heap, cap.reject, handled.completion.exception, o))
    else
      var resolved := Chain(handled, Call(handled.heap, cap.resolve, handled.completion.value, o));
      if resolved.completion.Throw? then
        Chain(resolved, Call(resolved.heap, cap.reject, resolved.completion.exception, o))
      else
        resolved
  }

  /**
   * `promiseResolveThenableJob`: make a fresh resolve/reject pair for the
   * promise and call the thenable's `then` with it. As written, `then`
   * receives ONE argument, the array `[resolve, reject]`; and when it throws,
   * the promise is rejected with the still-unset `thenCallResult`, i.e.
   * `undefined`.
   */
  function PromiseResolveThenableJob(h: Heap, p: PromiseId, thenable: Value, m: ThenMethod, o: Oracle): (r: Step)
    ensures FlagsGrow(h, r.heap) && |r.heap.flags| > |h.flags| && |r.heap.promises| >= |h.promises|
  {
    var rf := CreateResolvingFunctions(h, p);
    var called := match m
      case BuiltinThen => PromiseThen(rf.heap, thenable, ArrayValue([Func(rf.resolve), Func(rf.reject)]), Undefined)
      case ForeignThen(obj) => RunBehaviour(rf.heap, o.foreignThen(obj), rf.resolve, rf.reject, o);
    if called.completion.Throw? then Chain(called, Call(called.heap, rf.reject, Undefined, o))
    else called
  }

  /** `Job.prototype.execute` for the two job kinds; the completion is discarded. */
  function RunJob(h: Heap, job: Job, o: Oracle): (r: (Heap, seq<Job>))
    ensures FlagsGrow(h, r.0) && |r.0.promises| >= |h.promises|
  {
    var step := match job
      case ReactionJob(reaction, argument) => PromiseReactionJob(h, reaction, argument, o)
      case ResolveThenableJob(p, thenable, m) => PromiseResolveThenableJob(h, p, thenable, m, o);
    (step.heap, step.jobs)
  }
}

=== FILE: promise_lemmas.dfy ===
/**
 * Properties of the settlement machine: one-shot resolving functions, the
 * branches of the resolve function, the order-independence of attaching and
 * settling, what a reaction job does to its derived promise, and the
 * consequences of the places where the library departs from ECMA-262.
 */
module PromiseLemmas {
  import opened Common
  import opened Js
  import opened Promises

  // ---------------------------------------------------------------------------
  // One-shot resolving functions
  // ---------------------------------------------------------------------------

  /** Once the shared cell is set, user code calling the pair changes nothing. */
  lemma {:induction false} InvokeAfterResolved(h: Heap, calls: seq<Invocation>, p: PromiseId, f: FlagId, o: Oracle)
    requires h.Flag(f)
    ensures Invoke(h, calls, ResolveFn(p, f), RejectFn(p, f), o) == Step(h, [], Normal(Undefined))
    decreases |calls|
  {
    if |calls| > 0 {
      InvokeAfterResolved(h, calls[1..], p, f, o);
    }
  }

  /**
   * Of any sequence of calls of a resolve/reject pair, only the first has an
   * effect: the outcome is that of the first call alone.
   */
  lemma OnlyFirstSettlementCounts(h: Heap, calls: seq<Invocation>, p: PromiseId, f: FlagId, o: Oracle)
    requires f < |h.flags| && |calls| > 0
    ensures Invoke(h, calls, ResolveFn(p, f), RejectFn(p, f), o)
         == Invoke(h, [calls[0]], ResolveFn(p, f), RejectFn(p, f), o)
  {
    var first := match calls[0]
      case CallResolve(v) => Call(h, ResolveFn(p, f), v, o)
      case CallReject(v) => Call(h, RejectFn(p, f), v, o);
    assert first.heap.Flag(f);
    InvokeAfterResolved(first.heap, calls[1..], p, f, o);
    assert [calls[0]][1..] == [];
  }

  /**
   * The two functions `createResolvingFunctions` returns share their cell:
   * after either one has been called, both are no-ops.
   */
  lemma ResolvingFunctionsShareOneCell(h: Heap, p: PromiseId, first: Invocation, second: Invocation, o: Oracle)
    ensures var rf := CreateResolvingFunctions(h, p);
            var once := Invoke(rf.heap, [first], rf.resolve, rf.reject, o);
            Invoke(rf.heap, [first, second], rf.resolve, rf.reject, o) == once
  {
    var rf := CreateResolvingFunctions(h, p);
    OnlyFirstSettlementCounts(rf.heap, [first, second], p, |h.flags|, o);
  }

  // ---------------------------------------------------------------------------
  // The branches of the resolve function
  // ---------------------------------------------------------------------------

  /**
   * The first call of a resolve function on a pending promise: resolving
   * with the promise itself rejects it with a TypeError; a value whose
   * `typeof` is not "object" fulfils it; `null` or an object whose `then`
   * getter throws rejects it with `undefined` (as written); an object
   * without a callable `then` fulfils it with the object; a promise or a
   * thenable leaves it pending and enqueues exactly one thenable job.
   */
  lemma ResolveBranches(h: Heap, p: PromiseId, f: FlagId, resolution: Value)
    requires h.IsPending(p) && !h.Flag(f) && f < |h.flags|
    ensures var r := ResolveFunction(h, p, f, resolution);
            var fulfillReactions := h.promises[p].state.fulfillReactions;
            var rejectReactions := h.promises[p].state.rejectReactions;
            && r.completion == Normal(Undefined)
            && r.heap.Flag(f)
            && (resolution == PromiseRef(p) ==>
                  r.heap.promises[p] == PromiseRecord(Rejected, TypeErrorValue(""))
                  && r.jobs == TriggerPromiseReactions(rejectReactions, TypeErrorValue("")))
            && (TypeOf(resolution) != "object" ==>
                  r.heap.promises[p] == PromiseRecord(Fulfilled, resolution)
                  && r.jobs == TriggerPromiseReactions(fulfillReactions, resolution))
            && (resolution.Null? || resolution.PoisonedThen? ==>
                  r.heap.promises[p] == PromiseRecord(Rejected, Undefined)
                  && r.jobs == TriggerPromiseReactions(rejectReactions, Undefined))
            && (resolution.PlainObject? || resolution.ArrayLike? || resolution.ArrayValue? || resolution.ErrorObject? ==>
                  r.heap.promises[p] == PromiseRecord(Fulfilled, resolution)
                  && r.jobs == TriggerPromiseReactions(fulfillReactions, resolution))
            && (resolution.ThenableObject? ==>
                  r.heap.promises[p] == h.promises[p]
                  && r.jobs == [ResolveThenableJob(p, resolution, ForeignThen(resolution.obj))])
            && (resolution.PromiseRef? && resolution.promise != p ==>
                  r.heap.promises[p] == h.promises[p]
                  && r.jobs == [ResolveThenableJob(p, resolution, BuiltinThen)])
  {
  }

  // ---------------------------------------------------------------------------
  // Settling
  // ---------------------------------------------------------------------------

  /** Triggering a concatenation of reaction lists triggers each part in turn. */
  lemma TriggerAppend(a: seq<Reaction>, b: seq<Reaction>, argument: Value)
    ensures TriggerPromiseReactions(a + b, argument)
         == TriggerPromiseReactions(a, argument) + TriggerPromiseReactions(b, argument)
    decreases |a|
  {
  }

  /**
   * Attaching reactions and fulfilling a pending promise commute: attached
   * first, the reaction is queued by the fulfilment; attached after, it is
   * queued at once with the stored value. The resulting heap and job
   * sequence are the same.
   */
  lemma ThenCommutesWithFulfil(h: Heap, p: PromiseId, value: Value, onFulfilled: Value, onRejected: Value, cap: Capability)
    requires h.IsPending(p)
    ensures var attached := PerformPromiseThen(h, p, onFulfilled, onRejected, cap);
            var thenSettled := FulfillPromise(attached.heap, p, value);
            var settled := FulfillPromise(h, p, value);
            var thenAttached := PerformPromiseThen(settled.heap, p, onFulfilled, onRejected, cap);
            && thenSettled.heap == thenAttached.heap
            && attached.jobs + thenSettled.jobs == settled.jobs + thenAttached.jobs
            && thenAttached.jobs == [ReactionJob(Reaction(cap, FulfillHandler(onFulfilled)), value)]
  {
  }

  /** The same for rejection. */
  lemma ThenCommutesWithReject(h: Heap, p: PromiseId, reason: Value, onFulfilled: Value, onRejected: Value, cap: Capability)
    requires h.IsPending(p)
    ensures var attached := PerformPromiseThen(h, p, onFulfilled, onRejected, cap);
            var thenSettled := RejectPromise(attached.heap, p, reason);
            var settled := RejectPromise(h, p, reason);
            var thenAttached := PerformPromiseThen(settled.heap, p, onFulfilled, onRejected, cap);
            && thenSettled.heap == thenAttached.heap
            && attached.jobs + thenSettled.jobs == settled.jobs + thenAttached.jobs
            && thenAttached.jobs == [ReactionJob(Reaction(cap, RejectHandler(onRejected)), reason)]
  {
  }

  /**
   * Settling a promise that is no longer pending still overwrites its state
   * and result (the fields are written before the reaction list is read),
   * then throws and enqueues nothing.
   */
  lemma SecondSettlementOverwritesAndThrows(h: Heap, p: PromiseId, v: Value)
    requires p < |h.promises| && !h.promises[p].state.Pending?
    ensures FulfillPromise(h, p, v).heap.promises[p] == PromiseRecord(Fulfilled, v)
    ensures FulfillPromise(h, p, v).completion.Throw? && FulfillPromise(h, p, v).jobs == []
    ensures RejectPromise(h, p, v).heap.promises[p] == PromiseRecord(Rejected, v)
    ensures RejectPromise(h, p, v).completion.Throw? && RejectPromise(h, p, v).jobs == []
  {
  }

  // ---------------------------------------------------------------------------
  // Reaction jobs
  // ---------------------------------------------------------------------------

  /** `identity` resolves the derived capability with the argument itself. */
  lemma IdentityReactionPassesThrough(h: Heap, cap: Capability, g: FlagId, argument: Value, o: Oracle)
    requires BuiltinCapability(cap, g) && h.IsPending(cap.promise) && !h.Flag(g) && g < |h.flags|
    ensures PromiseReactionJob(h, Reaction(cap, Identity), argument, o)
         == ResolveFunction(h, cap.promise, g, argument)
  {
  }

  /** `thrower` rejects the derived capability with the argument. */
  lemma ThrowerReactionRejects(h: Heap, cap: Capability, g: FlagId, argument: Value, o: Oracle)
    requires BuiltinCapability(cap, g) && h.IsPending(cap.promise) && !h.Flag(g) && g < |h.flags|
    ensures PromiseReactionJob(h, Reaction(cap, Thrower), argument, o)
         == RejectFunction(h, cap.promise, g, argument)
  {
  }

  /**
   * A user handler resolves the derived capability with the value it
   * returns, or rejects it with the exception it throws.
   */
  lemma UserReactionSettlesDerived(h: Heap, cap: Capability, g: FlagId, argument: Value, id: nat, o: Oracle)
    requires BuiltinCapability(cap, g) && h.IsPending(cap.promise) && !h.Flag(g) && g < |h.flags|
    ensures o.handler(id, argument).Normal? ==>
              (PromiseReactionJob(h, Reaction(cap, User(id)), argument, o)
               == ResolveFunction(h, cap.promise, g, o.handler(id, argument).value))
    ensures o.handler(id, argument).Throw? ==>
              (PromiseReactionJob(h, Reaction(cap, User(id)), argument, o)
               == RejectFunction(h, cap.promise, g, o.handler(id, argument).exception))
  {
  }

  /** `thrower` turns a reason into a rejection of the derived promise with that reason. */
  lemma ThrowerRejectsDerived(h: Heap, cap: Capability, g: FlagId, reason: Value, o: Oracle)
    requires BuiltinCapability(cap, g) && h.IsPending(cap.promise) && !h.Flag(g) && g < |h.flags|
    ensures var r := PromiseReactionJob(h, Reaction(cap, Thrower), reason, o);
            && r.heap.promises[cap.promise] == PromiseRecord(Rejected, reason)
            && r.jobs == TriggerPromiseReactions(h.promises[cap.promise].state.rejectReactions, reason)
  {
  }

  /**
   * In `race`, every element's reactions call the same capability's
   * resolve and reject. Once that capability's cell is set, a later
   * reaction job leaves the race promise's record as it is.
   */
  lemma LaterRaceReactionIsIgnored(h: Heap, derived: Capability, g: FlagId, race: PromiseId, f: FlagId,
                                   settleWith: Fn, argument: Value, o: Oracle)
    requires BuiltinCapability(derived, g) && derived.promise != race
    requires settleWith == ResolveFn(race, f) || settleWith == RejectFn(race, f)
    requires h.Flag(f) && race < |h.promises|
    ensures PromiseReactionJob(h, Reaction(derived, settleWith), argument, o).heap.promises[race]
         == h.promises[race]
  {
  }

  /**
   * The other half of `race`: the first reaction job that calls the race
   * capability's resolve, while the race promise is pending and its cell
   * unset, sets the cell and fulfils the race promise with a non-object
   * argument. Its derived capability is a different library capability.
   */
  lemma FirstRaceResolveSettles(h: Heap, derived: Capability, g: FlagId, race: PromiseId, f: FlagId,
                                argument: Value, o: Oracle)
    requires BuiltinCapability(derived, g) && derived.promise != race && g != f
    requires h.IsPending(race) && !h.Flag(f) && f < |h.flags| && TypeOf(argument) != "object"
    ensures var r := PromiseReactionJob(h, Reaction(derived, ResolveFn(race, f)), argument, o);
            r.heap.Flag(f) && r.heap.promises[race] == PromiseRecord(Fulfilled, argument)
  {
  }

  /** The same for the race capability's reject, with any argument. */
  lemma FirstRaceRejectSettles(h: Heap, derived: Capability, g: FlagId, race: PromiseId, f: FlagId,
                               argument: Value, o: Oracle)
    requires BuiltinCapability(derived, g) && derived.promise != race && g != f
    requires h.IsPending(race) && !h.Flag(f) && f < |h.flags|
    ensures var r := PromiseReactionJob(h, Reaction(derived, RejectFn(race, f)), argument, o);
            r.heap.Flag(f) && r.heap.promises[race] == PromiseRecord(Rejected, argument)
  {
  }

  // ---------------------------------------------------------------------------
  // Construction and the thenable job, as written
  // ---------------------------------------------------------------------------

  /**
   * An executor that first resolves with a non-object value fulfils the new
   * promise with it, whatever the executor does afterwards, even if it
   * throws.
   */
  lemma ExecutorResolutionIsFinal(h: Heap, id: nat, v: Value, rest: seq<Invocation>, ending: Completion, o: Oracle)
    requires TypeOf(v) != "object"
    requires o.executor(id) == Behaviour([CallResolve(v)] + rest, ending)
    ensures var r := Construct(h, Func(User(id)), o);
            && r.completion == Normal(PromiseRef(|h.promises|))
            && r.heap.promises[|h.promises|] == PromiseRecord(Fulfilled, v)
            && r.jobs == []
  {
    var (h1, p) := NewPromise(h);
    var rf := CreateResolvingFunctions(h1, p);
    var calls := [CallResolve(v)] + rest;
    OnlyFirstSettlementCounts(rf.heap, calls, p, |h1.flags|, o);
    var ran := RunBehaviour(rf.heap, o.executor(id), rf.resolve, rf.reject, o);
    assert ran.heap.promises[p] == PromiseRecord(Fulfilled, v);
    if ran.completion.Throw? {
      var settled := Call(ran.heap, rf.reject, Undefined, o);
      assert ran.heap.Flag(|h1.flags|);
      assert settled == Step(ran.heap, [], Normal(Undefined));
    }
  }

  /**
   * As written, an executor that throws without calling either function
   * rejects the new promise with `undefined`, not with the exception.
   */
  lemma ThrowingExecutorRejectsWithUndefined(h: Heap, id: nat, exception: Value, o: Oracle)
    requires o.executor(id) == Behaviour([], Throw(exception))
    ensures var r := Construct(h, Func(User(id)), o);
            && r.completion == Normal(PromiseRef(|h.promises|))
            && r.heap.promises[|h.promises|] == PromiseRecord(Rejected, Undefined)
  {
  }

  /**
   * A foreign `then` that first calls the resolve function it was handed
   * with a non-object value fulfils the adopting promise with it, whatever
   * it does afterwards, even if it throws.
   */
  lemma ForeignThenResolutionIsFinal(h: Heap, p: PromiseId, thenable: Value, obj: nat, v: Value,
                                     rest: seq<Invocation>, ending: Completion, o: Oracle)
    requires h.IsPending(p) && TypeOf(v) != "object"
    requires o.foreignThen(obj) == Behaviour([CallResolve(v)] + rest, ending)
    ensures var r := PromiseResolveThenableJob(h, p, thenable, ForeignThen(obj), o);
            && r.completion.Normal?
            && r.heap.promises[p] == PromiseRecord(Fulfilled, v)
            && r.jobs == TriggerPromiseReactions(h.promises[p].state.fulfillReactions, v)
  {
    var rf := CreateResolvingFunctions(h, p);
    var f := |h.flags|;
    var calls := [CallResolve(v)] + rest;
    OnlyFirstSettlementCounts(rf.heap, calls, p, f, o);
    var ran := RunBehaviour(rf.heap, o.foreignThen(obj), rf.resolve, rf.reject, o);
    assert ran.heap.promises[p] == PromiseRecord(Fulfilled, v);
    if ran.completion.Throw? {
      assert ran.heap.Flag(f);
    }
  }

  /**
   * As written, a foreign `then` that throws without calling either
   * function rejects the adopting promise with `undefined`, not with the
   * exception, and runs its reject reactions.
   */
  lemma ThrowingForeignThenRejectsWithUndefined(h: Heap, p: PromiseId, thenable: Value, obj: nat,
                                                exception: Value, o: Oracle)
    requires h.IsPending(p)
    requires o.foreignThen(obj) == Behaviour([], Throw(exception))
    ensures var r := PromiseResolveThenableJob(h, p, thenable, ForeignThen(obj), o);
            && r.completion == Normal(Undefined)
            && r.heap.promises[p] == PromiseRecord(Rejected, Undefined)
            && r.jobs == TriggerPromiseReactions(h.promises[p].state.rejectReactions, Undefined)
  {
  }

  /**
   * As written, adopting one of the library's own promises never settles
   * the adopting promise: its `then` receives the pair as one array, which
   * is not callable, so only `identity`/`thrower` reactions are attached.
   */
  lemma AdoptingLibraryPromiseNeverSettles(h: Heap, p: PromiseId, q: PromiseId, o: Oracle)
    requires p < |h.promises| && q < |h.promises| && p != q
    ensures var r := PromiseResolveThenableJob(h, p, PromiseRef(q), BuiltinThen, o);
            && r.heap.promises[p] == h.promises[p]
            && r.completion == Normal(PromiseRef(|h.promises|))
  {
  }
}

=== FILE: scheduler.dfy ===
/**
 * The promise machinery on top of the library's one job handler: every job
 * an operation enqueues is handed to `enqueue` in the order the operation
 * produced it, and a drain of the handler runs the jobs with `RunJob`
 * (ECMA-262 6th edition, section 8.4, the PromiseJobs queue).
 */
module Scheduler {
  import opened Common
  import opened Js
  import opened Promises
  import opened JobQueue
  import PromiseLemmas
  import CombinatorWiring

  /** The library's global state: the promise heap and the job handler chosen at start-up. */
  datatype Realm = Realm(heap: Heap, queue: JobHandler<Job>)

  /** Running one PromiseJobs job on the heap; what it enqueues comes back in order. */
  function Exec(o: Oracle): (Heap, Job) -> (Heap, seq<Job>) {
    (h: Heap, j: Job) => RunJob(h, j, o)
  }

  /** Hand `jobs` to `enqueue` one by one; an unsupported handler throws at the first. */
  function Schedule(q: JobHandler<Job>, jobs: seq<Job>): (r: Result<JobHandler<Job>, QueueError>)
    ensures r.Err? <==> |jobs| > 0 && !q.IsSupported()
    ensures r.Err? ==> r.error == EnqueueUnsupported
    ensures r.Ok? ==> r.value.length == q.length + |jobs|
    decreases |jobs|
  {
    if |jobs| == 0 then Ok(q)
    else match Enqueue(q, jobs[0])
      case Err(e) => Err(e)
      case Ok(q1) => Schedule(q1, jobs[1..])
  }

  /**
   * On a supported handler, scheduling appends the jobs to the pending
   * order, in order, and keeps the buffer consistent.
   */
  lemma {:induction false} ScheduleAppends(q: JobHandler<Job>, jobs: seq<Job>)
    requires q.IsSupported() && q.Valid()
    ensures Schedule(q, jobs).Ok?
    ensures Schedule(q, jobs).value.Valid() && Schedule(q, jobs).value.IsSupported()
    ensures JobsOf(Schedule(q, jobs).value.slots) == JobsOf(q.slots) + jobs
    decreases |jobs|
  {
    if |jobs| > 0 {
      var q1 := Push(q, jobs[0]);
      PushKeepsWindow(q, jobs[0], 0);
      ScheduleAppends(q1, jobs[1..]);
      assert [jobs[0]] + jobs[1..] == jobs;
      assert JobsOf(q1.slots) + jobs[1..] == JobsOf(q.slots) + jobs;
    }
  }

  /** Apply the outcome of an operation: adopt its heap and enqueue its jobs. */
  function Commit(r: Realm, s: Step): (r': Result<Realm, QueueError>)
    ensures r'.Ok? <==> Schedule(r.queue, s.jobs).Ok?
    ensures r'.Ok? ==> r'.value.heap == s.heap
  {
    match Schedule(r.queue, s.jobs)
    case Err(e) => Err(e)
    case Ok(q) => Ok(Realm(s.heap, q))
  }

  /**
   * One firing of the handler's scheduled callback: `_process` drains the
   * buffer, running each job on the heap. The heap and the jobs run are
   * those of the FIFO reference `Drain`; once nothing is left the handler
   * is empty again and holds no backend token.
   */
  method RunJobs(r: Realm, o: Oracle, fuel: nat) returns (r': Realm, ran: seq<Job>)
    requires r.queue.Valid()
    ensures var d := Drain(JobsOf(r.queue.slots), r.heap, Exec(o), fuel);
            r'.heap == d.state && ran == d.ran && JobsOf(r'.queue.slots) == d.left
    ensures |JobsOf(r'.queue.slots)| == 0 ==>
              r'.queue.Valid() && r'.queue.length == 0 && r'.queue.scheduled == multiset{}
    ensures r'.queue.IsSupported() == r.queue.IsSupported()
  {
    var q, h;
    q, h, ran := Process(r.queue, r.heap, Exec(o), fuel);
    r' := Realm(h, q);
  }

  /**
   * No job clears a cell or drops a promise: every cell set before a drain
   * of the handler is still set after it, however many jobs run.
   */
  lemma DrainKeepsCells(queue: seq<Job>, h: Heap, o: Oracle, fuel: nat)
    ensures var d := Drain(queue, h, Exec(o), fuel);
            FlagsGrow(h, d.state) && |d.state.promises| >= |h.promises|
  {
    var keep := (a: Heap, b: Heap) => FlagsGrow(a, b) && |a.promises| <= |b.promises|;
    forall a: Heap, j: Job
      ensures keep(a, Exec(o)(a, j).0)
    {
      ExecKeepsCells(a, j, o);
    }
    DrainRespects(queue, h, Exec(o), fuel, keep);
  }

  lemma ExecKeepsCells(h: Heap, job: Job, o: Oracle)
    ensures FlagsGrow(h, Exec(o)(h, job).0) && |Exec(o)(h, job).0.promises| >= |h.promises|
  {
    assert Exec(o)(h, job) == RunJob(h, job, o);
  }

  /**
   * A resolving pair whose shared cell was set before a drain is still
   * inert after it: whatever user code later calls on it changes nothing
   * and answers `undefined`, so a promise is resolved at most once through
   * one pair even across jobs.
   */
  lemma ResolvedPairStaysInert(queue: seq<Job>, h: Heap, o: Oracle, fuel: nat,
                               calls: seq<Invocation>, p: PromiseId, f: FlagId)
    requires h.Flag(f)
    ensures var d := Drain(queue, h, Exec(o), fuel);
            Invoke(d.state, calls, ResolveFn(p, f), RejectFn(p, f), o) == Step(d.state, [], Normal(Undefined))
  {
    var d := Drain(queue, h, Exec(o), fuel);
    DrainKeepsCells(queue, h, o, fuel);
    PromiseLemmas.InvokeAfterResolved(d.state, calls, p, f, o);
  }

  /**
   * Once the race capability's cell is set, a reaction job run after any
   * drain, on behalf of any other element, leaves the race promise as it is.
   */
  lemma RaceStaysSettled(queue: seq<Job>, h: Heap, o: Oracle, fuel: nat, derived: Capability, g: FlagId,
                         race: PromiseId, f: FlagId, settleWith: Fn, argument: Value)
    requires BuiltinCapability(derived, g) && derived.promise != race
    requires settleWith == ResolveFn(race, f) || settleWith == RejectFn(race, f)
    requires h.Flag(f) && race < |h.promises|
    ensures race < |Drain(queue, h, Exec(o), fuel).state.promises|
    ensures var d := Drain(queue, h, Exec(o), fuel);
            PromiseReactionJob(d.state, Reaction(derived, settleWith), argument, o).heap.promises[race]
              == d.state.promises[race]
  {
    var d := Drain(queue, h, Exec(o), fuel);
    DrainKeepsCells(queue, h, o, fuel);
    PromiseLemmas.LaterRaceReactionIsIgnored(d.state, derived, g, race, f, settleWith, argument, o);
  }

  /**
   * What `performPromiseRace` attached meets the premise of
   * `RaceStaysSettled`: element k's reactions run for a derived capability
   * other than the race capability, so once the race promise's cell `f` is
   * set, after any number of jobs they leave the race promise as it is.
   */
  lemma RaceLoserStaysIgnored(h: Heap, h': Heap, jobs: seq<Job>, xs: seq<Value>, targets: seq<PromiseId>,
                              cap: Capability, f: FlagId, k: nat, queue: seq<Job>, s: Heap, o: Oracle, fuel: nat,
                              argument: Value)
    returns (d: Capability)
    requires CombinatorWiring.RaceWired(h, h', jobs, xs, targets, cap)
    requires BuiltinCapability(cap, f) && cap.promise < |h.promises|
    requires k < |xs| && (xs[k].PromiseRef? ==> xs[k].promise < |h.promises|)
    requires s.Flag(f) && cap.promise < |s.promises|
    ensures CombinatorWiring.AttachedVia(h', jobs, targets[k], d, cap.resolve, cap.reject)
    ensures cap.promise < |Drain(queue, s, Exec(o), fuel).state.promises|
    ensures var later := Drain(queue, s, Exec(o), fuel).state;
            && PromiseReactionJob(later, Reaction(d, cap.resolve), argument, o).heap.promises[cap.promise]
                 == later.promises[cap.promise]
            && PromiseReactionJob(later, Reaction(d, cap.reject), argument, o).heap.promises[cap.promise]
                 == later.promises[cap.promise]
  {
    d := CombinatorWiring.RaceReactionsAfterSettling(h, h', jobs, xs, targets, cap, f, k, s, argument, o);
    var g := d.resolve.alreadyResolved;
    RaceStaysSettled(queue, s, o, fuel, d, g, cap.promise, f, cap.resolve, argument);
    RaceStaysSettled(queue, s, o, fuel, d, g, cap.promise, f, cap.reject, argument);
  }

  /**
   * `then` on a fulfilled promise runs nothing at once: the derived promise
   * is still pending when `then` returns, and exactly one job is queued.
   * The next drain runs the user handler on the stored value and, when the
   * handler returns a non-object, fulfils the derived promise with it.
   */
  lemma ThenHandlerRunsOnDrain(r: Realm, p: PromiseId, id: nat, o: Oracle)
    requires r.queue.IsSupported() && r.queue.Valid() && JobsOf(r.queue.slots) == []
    requires p < |r.heap.promises| && r.heap.promises[p].state.Fulfilled?
    requires var v := r.heap.promises[p].result;
             o.handler(id, v).Normal? && TypeOf(o.handler(id, v).value) != "object"
    ensures var t := PromiseThen(r.heap, PromiseRef(p), Func(User(id)), Undefined);
            var derived := |r.heap.promises|;
            var w := o.handler(id, r.heap.promises[p].result).value;
            && t.completion == Normal(PromiseRef(derived))
            && t.heap.IsPending(derived)
            && Commit(r, t).Ok?
            && |JobsOf(Commit(r, t).value.queue.slots)| == 1
            && var d := Drain(JobsOf(Commit(r, t).value.queue.slots), t.heap, Exec(o), 1);
               && derived < |d.state.promises|
               && d.state.promises[derived] == PromiseRecord(Fulfilled, w)
               && d.ran == JobsOf(Commit(r, t).value.queue.slots)
  {
    var v := r.heap.promises[p].result;
    var w := o.handler(id, v).value;
    var derived := |r.heap.promises|;
    var g := |r.heap.flags|;
    var t := PromiseThen(r.heap, PromiseRef(p), Func(User(id)), Undefined);
    var (h1, cap) := NewPromiseCapability(r.heap, PromiseCtor).value;
    assert t == PerformPromiseThen(h1, p, Func(User(id)), Undefined, cap);
    var job := ReactionJob(Reaction(cap, User(id)), v);
    assert t.jobs == [job] && t.heap == h1;
    ScheduleAppends(r.queue, t.jobs);
    var queued := JobsOf(Commit(r, t).value.queue.slots);
    assert queued == [job];
    PromiseLemmas.UserReactionSettlesDerived(h1, cap, g, v, id, o);
    PromiseLemmas.ResolveBranches(h1, derived, g, w);
    var ranJob := RunJob(h1, job, o);
    assert Exec(o)(h1, job) == ranJob;
    assert Drain(queued, h1, Exec(o), 1)
        == DrainResult(ranJob.0, [job], queued[1..] + ranJob.1);
  }
}
